=== FILE: README.md ===
# Bed management service (NIR) in Dafny

This project models the in-memory bed-management service of the NIR
(Núcleo Interno de Regulação) front end, together with the pure helpers of
its bed-map page. The service keeps three module-level collections:
patients, beds and admissions. Over them it offers:

- three read models:
  - the bed map (`getMapStats`): per-category counters and one table row per occupied bed;
  - the dashboard summary (`getDashboardStats`): occupancy rate, admissions today and the four most recent active admissions;
  - the admission details (`getAdmissionDetails`);
- two writes:
  - `updatePatient`: overwrite a patient record and copy the new name into the bed of the active admission;
  - `dischargePatient`: close the admission, free the bed and stamp the patient.

The bed-map page adds the doughnut slices, the table search, the birth-date
fields of the edit form and the discharge form's event text and option lists.

Modules:

- `Js`: the JavaScript string and number built-ins the code relies on. These are `includes`, `padStart`, `toString`, `split`, `substring`, `toLowerCase` (ASCII), `||` on strings and `%` on negative operands.
- `Lookup`: `find`, `findIndex`, `filter`, counting and `map`, with their laws.
- `Domain`: the records and unions of the data model, and the lookup predicates.
- `TimeText`: the length-of-stay text and the zero-padded entry and hour texts.
- `Stats`: the read models as functions. This covers classification, the category chart, the table, the occupancy rate, admissions today, the recent list and the details.
- `Mutations`: the two writes as functions from the old collections to the new ones, with the lemmas about what they change and keep.
- `Seed`: the seed collections and what the read models give on them.
- `Api`: the `Store` class. Its three fields are the module-level arrays. Its methods run each operation as the service does:
  - the bed map as a loop over the beds;
  - the dashboard sum as a loop over the categories;
  - the writes as in-place updates by index.

  Each method is proved to compute what `Stats` or `Mutations` defines.
- `BedMap`: the pure helpers of the bed-map page.

Time is modelled without a clock:

- Instants are integer milliseconds.
- The current instant is a parameter (`now`).
- The local calendar reading of an instant is a parameter `clock: int -> LocalTime`. Its month counts from 0, like `getMonth()`.
- The two `new Date().toISOString()` readings of a discharge are two string parameters.

Behaviour of the code a reader might not expect:

- `dischargePatient` always writes status `alta`, whatever discharge type was chosen.
- It ignores the event date typed in the form.
- It does not check that the admission is still active.
- It reports success even when no id resolves.
- The length of stay of an entry in the future is modelled with JavaScript's `Math.floor` and `%`, which gives texts like `-1h -30m`. No precondition excludes it.
- Saving the edit form unchanged rewrites a ten-character birth date that is not ISO: `15/05/1980` has no dash, fills only the year and is stored as `15/0-5/-19`.
- The sort of the recent admissions is an insertion sort that places each admission before every later one it ties with, so ties keep their collection order, as in JavaScript's stable `Array.prototype.sort`.

## Model

| member | source | states |
|---|---|---|
| Domain.RiskLevel.Name | types.ts:4 | every risk level has a non-empty name, so the details' `'-'` fallback never fires |
| Domain.IsolationType.Name | types.ts:5 | every isolation type has a non-empty name, so the details' `'Não'` fallback never fires |
| Js.OrElse | services/mockData.ts:166 | `x \|\| d` on an optional string: the value when it is present and non-empty, otherwise the default |
| Js.Pad2Value | services/mockData.ts:146 | `n.toString().padStart(2, '0')` for `0 <= n < 100` is two digits that read back as `n` |
| Js.SplitJoin | pages/BedMap.tsx:52 | joining the parts of a split with the separator gives back the string |
| Js.Substring | services/mockData.ts:299 | `substring` is the slice between its two bounds, each clamped to the string, taken in either order |
| Js.ToLowerIdempotent | pages/BedMap.tsx:105-107 | lowering twice is lowering once |
| Js.JsRem | services/mockData.ts:156 | JavaScript's `%` has the sign of the dividend, magnitude below the divisor, and differs from the dividend by a multiple of the divisor |
| Lookup.FindIndex | services/mockData.ts:292 | `findIndex` returns the first index satisfying the predicate, or -1 when none does |
| Lookup.Find | services/mockData.ts:138 | `find` returns the element at the first index satisfying the predicate, or nothing when none does |
| Lookup.FilterIsSubsequence | pages/BedMap.tsx:104 | `filter` keeps an order-preserving subsequence |
| Lookup.FilterMember | pages/BedMap.tsx:104 | an element is kept exactly when it is present and satisfies the predicate |
| Lookup.FilterIdempotent | pages/BedMap.tsx:104 | filtering twice with the same predicate is filtering once |
| Lookup.MapFilterStep | services/mockData.ts:135-169 | the rows of the kept elements of a prefix one longer gain the new element's row exactly when it is kept |
| TimeText.StayMeaning | services/mockData.ts:148-158 | the days form appears exactly for a stay of a day or more; it gives whole days and hours below 24 that bracket the stay; the hours form gives hours below 24 and minutes below 60 that bracket it; a future entry gives negative whole hours that bracket the stay |
| TimeText.PermanenceExamples | services/mockData.ts:152-158 | two days three hours is `2d 3h`, five and a half hours is `5h 30m`, zero is `0h 0m` |
| TimeText.FutureEntryPermanence | services/mockData.ts:148-157 | an entry half an hour in the future is shown as `-1h -30m` |
| TimeText.EntryTextFields | services/mockData.ts:146 | the entry text of a valid reading has eleven characters, `/`, ` ` and `:` at 2, 5 and 8, and four two-digit fields that read back as day, month + 1, hour and minute |
| Stats.ClassifyPrecedence | services/mockData.ts:124-129 | a bed type lands in Isolamento exactly when it contains "Isolamento"; else in Observação when it contains "Observação"; else in Estabilização when it contains "Estabilização"; else in Clínico |
| Stats.DeclaredTypesClassify | services/mockData.ts:124-129 | each of the four declared bed types lands in its own category |
| Stats.CategoriesPartition | services/mockData.ts:123-136 | the four category totals sum to the number of beds, and the four occupied counts to the number of occupied beds |
| Stats.CategoryOccupied | services/mockData.ts:131-136 | a category never has more occupied beds than beds |
| Stats.GraficosEntry | services/mockData.ts:113-136 | every category is in the chart, with its total, its occupied count and its fixed colour |
| Stats.GraficosOfNoBeds | services/mockData.ts:113-118 | with no beds the chart is the four zeroed categories with their colours |
| Stats.GraficosStep | services/mockData.ts:131-136 | one more bed bumps its category's total, and its occupied count when the bed is occupied |
| Stats.SameShapeSameCharts | services/mockData.ts:123-136 | bed lists that agree on every bed's type and status give the same chart and the same occupied count |
| Stats.GraficosSums | services/mockData.ts:183-189 | summed over the categories, the chart counts every bed and every occupied bed once |
| Stats.AdmissionOfBed | services/mockData.ts:138 | the admission found is the first whose id the bed references; none is found exactly when no admission has that id |
| Stats.RowOf | services/mockData.ts:141-169 | the row's label is `"Leito " + number`; its type slug is the category's; the patient is the bed's name when present and non-empty, `Desconhecido` otherwise; a missing admission gives an empty id and `-` for entry and stay; a found one gives its id, entry text and stay text |
| Stats.Rows | services/mockData.ts:135-170 | the table has one row per occupied bed |
| Stats.RowsStep | services/mockData.ts:135-170 | the table grows by one row exactly when the next bed is occupied |
| Stats.RowsAreOccupiedBeds | services/mockData.ts:135-170 | the table is the rows of the occupied beds, in bed order; a bed is among them exactly when it is occupied |
| Stats.OccupancyRateRounding | services/mockData.ts:191 | the rate is 0 for no beds; otherwise the exact percentage plus one half lies in `[r, r + 1)`; it is at most 100 |
| Stats.OccupancyRateExamples | services/mockData.ts:191 | no beds gives 0, 3 of 8 gives 38, 1 of 8 gives 13 |
| Stats.AdmissionsToday | services/mockData.ts:194-195 | admissions whose entry falls on today's local date, never more than there are admissions |
| Stats.AdmissionsTodayStep | services/mockData.ts:193-194 | one more admission raises the count by one exactly when its entry falls on today's date |
| Stats.SortByEntryDesc | services/mockData.ts:209 | the sort orders by non-increasing entry instant and is a permutation |
| Stats.Take4 | services/mockData.ts:210 | `slice(0, 4)` is the prefix of length at most four |
| Stats.RecentAdmissions | services/mockData.ts:208-210 | at most four admissions, all active ones from the collection, each at most as often as it occurs there, newest first; four exactly when there are four active |
| Stats.RecentAdmissionsAreMostRecent | services/mockData.ts:208-210 | an active admission left out entered no later than any chosen one |
| Stats.RecentBedLabel | services/mockData.ts:226 | `-` for a missing bed; the number itself when it already contains "Leito"; otherwise `"Leito " + number`; never without "Leito" |
| Stats.RecentOf | services/mockData.ts:212-229 | the name is the first matching patient's when non-empty, `Desconhecido` otherwise; the label is `RecentBedLabel` of the first matching bed; the slug is that bed's category's, `clinico` without a bed; the hour is the hour text of the entry |
| Stats.Recentes | services/mockData.ts:212-230 | `recentes` holds at most four rows, one per recent admission, in the same order |
| Stats.AdmissionDetails | services/mockData.ts:245-287 | not found exactly when the admission, its patient or its bed is missing; otherwise the views come from that admission and its patient, the bed name starts with `Leito `, and every fallback leaves no field empty |
| Stats.AdmissionDetailsFields | services/mockData.ts:255-285 | every field of the found details comes from the first admission with the id, its first patient and its first bed; empty diagnosis and origin show `Não informado` and `-` |
| Stats.PacienteViewOf | services/mockData.ts:272-284 | the patient view copies each field and shows `-` for a missing or empty editor |
| TimeText.HourTextFields | services/mockData.ts:222 | the hour text of a valid reading has five characters, `:` at 2, and two two-digit fields that read back as hour and minute |
| Mutations.ReformatBirthDate | services/mockData.ts:299 | an empty `nasc` keeps the old birth date; otherwise the result is the characters up to 4, 4 to 6 and 6 to 8, each range clamped to `nasc`, joined by dashes; eight or more characters give `YYYY-MM-DD` |
| Mutations.PropagateName | services/mockData.ts:307-313 | a bed changes only by taking the new name, and only the first bed with the id of the patient's first active admission can change |
| Mutations.UpdatePatient | services/mockData.ts:290-319 | success exactly when some patient has the id; a failure changes nothing; admissions are never changed |
| Mutations.UpdatePatientFields | services/mockData.ts:292-305 | exactly the first patient with the id is rewritten with the request's fields and `editedBy` Admin; id, internal id, last discharge and age are kept |
| Mutations.UpdateRenamesOnlyActiveBed | services/mockData.ts:307-313 | a bed that changes is the first bed with the id of the patient's first active admission, and only its displayed name changes |
| Mutations.UpdatePropagatesName | services/mockData.ts:307-313 | the bed of the first active admission, when it exists, shows the new name |
| Mutations.UpdateKeepsCounts | services/mockData.ts:290-319 | an update never changes the chart or the occupied count |
| Mutations.DischargePatient | services/mockData.ts:322-347 | the call always succeeds and keeps the size of every collection |
| Mutations.DischargeEffects | services/mockData.ts:324-343 | each of the three updates happens exactly when its id resolves, on the first match only, and changes nothing else in the record: the admission becomes `alta` with stamp, destination and notes; the bed becomes free with no admission and no name; the patient is stamped |
| Mutations.DischargeIgnoresEventDate | services/mockData.ts:322-347 | the event date of the request has no effect |
| Mutations.DischargeStatusIsAlta | services/mockData.ts:329 | any admission the discharge changes ends as `alta` |
| Mutations.DischargeNeverReadmits | services/mockData.ts:328-333 | no admission becomes active, and the active count never grows |
| Mutations.DischargeKeepsAdmissionsToday | services/mockData.ts:328-333 | a discharge leaves the count of today's admissions unchanged, since it keeps every entry date and the count ignores status |
| Mutations.DischargeFreesBed | services/mockData.ts:335-339 | freeing an occupied bed takes it out of the occupied count, its category's occupied count and the table, and keeps every total; otherwise no count changes |
| Mutations.UpdateKeepsConsistency | services/mockData.ts:307-313 | an update keeps "occupied exactly when an admission is referenced" |
| Mutations.DischargeKeepsConsistency | services/mockData.ts:335-339 | a discharge keeps "occupied exactly when an admission is referenced" |
| Seed.SeedCharts | services/mockData.ts:47-56 | the seed chart is Clínico 3/1, Isolamento 2/1, Observação 2/1, Estabilização 1/0, with three occupied beds |
| Seed.SeedOccupancyRate | services/mockData.ts:47-56 | the seed occupancy rate is 38 |
| Seed.SeedConsistent | services/mockData.ts:47-56 | every seed bed is occupied exactly when it references an admission |
| Api.Store.Seeded | services/mockData.ts:4-98 | the store starts with the seed collections, which are consistent |
| Api.Store.GetMapStats | services/mockData.ts:110-176 | the loop computes the chart and the table the `Stats` functions define |
| Api.Store.CountBed | services/mockData.ts:124-136 | one bed bumps its category's total, and its occupied count when occupied |
| Api.Store.GetDashboardStats | services/mockData.ts:179-242 | the chart is the bed map's; the rate is that of the occupied beds over all beds and at most 100; admissions today and the recent list are as defined |
| Api.Store.SumCounts | services/mockData.ts:183-189 | the loop sums the totals and the occupied counts over the four categories |
| Api.Store.GetAdmissionDetails | services/mockData.ts:245-287 | the three `find` lookups, carried out as `FindIndex` and indexing, and the record built from them give the details `Stats.AdmissionDetails` defines |
| Api.Store.UpdatePatient | services/mockData.ts:290-319 | the new collections and the result are those `Mutations.UpdatePatient` defines, and the bed agreement is kept |
| Api.Store.DischargePatient | services/mockData.ts:322-347 | the new collections and the result are those `Mutations.DischargePatient` defines, and the bed agreement is kept |
| BedMap.GetChartData | pages/BedMap.tsx:92-100 | two slices, occupied then free, summing to the total, both non-negative when occupied ≤ total |
| BedMap.CategoryChart | pages/BedMap.tsx:151 | a category's doughnut shows its occupied beds and its other beds in its colour |
| BedMap.GetFilteredTable | pages/BedMap.tsx:102-109 | no rows before the bed map has loaded; never more rows than the table |
| BedMap.FilteredTableIsSubsequence | pages/BedMap.tsx:102-109 | the rows shown are an order-preserving subsequence of the table |
| BedMap.FilteredTableMember | pages/BedMap.tsx:104-108 | a row is shown exactly when the lowered search text occurs in its lowered patient, label or type |
| BedMap.EmptySearchShowsAll | pages/BedMap.tsx:104-108 | an empty search shows every row |
| BedMap.SearchIdempotent | pages/BedMap.tsx:104-108 | searching the shown rows again shows the same rows |
| BedMap.SearchIgnoresCase | pages/BedMap.tsx:105-107 | lowering the search text first changes nothing |
| BedMap.PartAt | pages/BedMap.tsx:52 | destructuring takes part `k` of the split, or `undefined` past the end |
| BedMap.SplitIsoDate | pages/BedMap.tsx:52 | an ISO date splits on its dashes into year, month and day |
| BedMap.PrefillIsoDate | pages/BedMap.tsx:50-53 | a ten-character ISO birth date fills year, month and day |
| BedMap.PrefillOtherLength | pages/BedMap.tsx:50-53 | any other length leaves the three fields empty, so the form sends an empty date |
| BedMap.BirthDateRoundTrip | pages/BedMap.tsx:50-69 | split, concatenation and the `YYYYMMDD` reformat give back the ISO birth date |
| BedMap.SaveUnchangedForm | pages/BedMap.tsx:61-69 | saving the form as filled changes nothing in the patient apart from the editor, whenever the stored birth date is ISO or not ten characters long |
| BedMap.PrefillWithoutDash | pages/BedMap.tsx:50-53 | a ten-character birth date without dashes fills only the year, so the request carries it followed by `undefined` twice |
| BedMap.NonIsoDateSaved | pages/BedMap.tsx:50-69 | saving the unchanged form of a patient born `15/05/1980` stores `15/0-5/-19`, so the record does change |
| BedMap.SaveFromDetailsSucceeds | pages/BedMap.tsx:61-69 | the form of a details screen that was found names a stored patient, so saving succeeds |
| BedMap.PartialDateExample | pages/BedMap.tsx:63 | an unselected day sends six characters and stores `1980-05-` |
| BedMap.ShortDateExample | services/mockData.ts:299 | a five-character birth date is cut at 4 and 5 and stores `1980-0-` |
| BedMap.EventText | pages/BedMap.tsx:77 | the event text starts with the day and `/` and ends with `:` and the minute |
| BedMap.DischargeRequest | pages/BedMap.tsx:75-85 | nothing is sent without details; otherwise the ids on screen, the chosen type, the event text and the notes |
| BedMap.DischargeIgnoresForm | pages/BedMap.tsx:77-85 | the form's date and time fields make no difference to the discharge |
| BedMap.EventTextReadsBack | pages/BedMap.tsx:77 | with two-digit fields, day, month, hour and minute read back from fixed places in the event text |
| BedMap.DefaultsAreOptions | pages/BedMap.tsx:118-130 | the preset fields are the options of the clock's day, month, hour and minute and the first year offered |
| BedMap.OptionLists | pages/BedMap.tsx:111-115 | days `01`..`31`, months `01`..`12`, hours `00`..`23` and minutes `00`..`59`, each two digits reading back as its value |
| BedMap.MonthOptionsDistinct | pages/BedMap.tsx:112 | month option `k` is valued `k + 1` in two digits and labelled with the name of month `k + 1`, so no two options share a value or a label |
| BedMap.YearsCountDown | pages/BedMap.tsx:113 | a hundred years, from the current one down |

## Left out

- Locale formatting: `formatDateBR` (`toLocaleDateString('pt-BR')`) is not modelled; the details carry the raw entry and system instants.
- Time zones and calendar arithmetic: the local reading of an instant is the `clock` parameter, and today's date is the reading of `now`.
- The weekly flow of the dashboard: its values come from `Math.random` and its labels from calendar arithmetic.
- `Promise` and `setTimeout`: every operation is modelled as a synchronous call.
- React state, modals, effects and `alert` on the bed-map page; pages/Dashboard.tsx, components/Sidebar.tsx and index.tsx are not part of this model.
- `Stats.OccupancyRate`: float `Math.round((occupied / total) * 100)` is modelled as exact half-up rounding; floating-point error near a half is not modelled.
- `BedMap.RowMatches`: `toLowerCase` is modelled on ASCII letters only; other characters are kept as they are.
- `BedMap.Years`: the current year is a parameter rather than a clock reading.
- The `'-'` and `'Não'` fallbacks for the risk level and isolation type of the details cannot fire, because every name is non-empty. They are modelled but not reachable.
- `Stats.SortByEntryDesc`: stability holds by the construction of the insertion sort; no contract states it.
- String lengths and `substring` positions count Unicode scalar values; JavaScript counts UTF-16 code units, which differ for characters outside the Basic Multilingual Plane.
- `Seed.SeedAdmissions`: one load instant stands for every `new Date()` the seed reads for `entryDate` and `systemEntryDate`; the milliseconds between those readings are not modelled, and no property depends on them.

=== FILE: api.dfy ===
/**
 * The API service over the three module-level collections. The store owns
 * the collections and runs each operation the way the service does: the
 * bed map and the dashboard as loops, the two writes as in-place updates by
 * index. Each method is proved to compute the value, or reach the state,
 * that `Stats` and `Mutations` define.
 */
module Api {
  import opened Js
  import opened Lookup
  import opened Domain
  import opened Stats
  import Mutations
  import Seed

  class Store {
    var patients: seq<Patient>
    var beds: seq<Bed>
    var admissions: seq<Admission>

    /** The three collections as one value. */
    function Snapshot(): Db
      reads this
    {
      Db(patients, beds, admissions)
    }

    /** The seed collections, with every admission created at `loadTime`. */
    constructor Seeded(loadTime: int)
      ensures Snapshot() == Seed.SeedDb(loadTime)
      ensures Mutations.BedsConsistent(beds)
    {
      patients := Seed.SeedPatients();
      beds := Seed.SeedBeds();
      admissions := Seed.SeedAdmissions(loadTime);
      Seed.SeedConsistent();
    }

    /**
     * `getMapStats`: one pass over the beds that bumps the counters of each
     * bed's category and adds a row for each occupied bed.
     */
    method GetMapStats(now: int, clock: Clock) returns (r: MapStats)
      ensures r.graficos == GraficosOf(beds)
      ensures r.tabela == Rows(beds, admissions, now, clock)
    {
      var categories := map[
        Clinico := CatStats(0, 0, "#1e88e5"), Isolamento := CatStats(0, 0, "#8e24aa"),
        Observacao := CatStats(0, 0, "#fb8c00"), Estabilizacao := CatStats(0, 0, "#c62828")];
      var tabela: seq<Row> := [];
      GraficosOfNoBeds();
      assert beds[..0] == [];
      var i := 0;
      while i < |beds|
        invariant 0 <= i <= |beds|
        invariant categories == GraficosOf(beds[..i])
        invariant tabela == Rows(beds[..i], admissions, now, clock)
      {
        var bed := beds[i];
        categories := CountBed(categories, bed);
        GraficosStep(beds, i);
        if bed.status == Ocupado {
          var admission := AdmissionOfBed(bed, admissions);
          tabela := tabela + [RowOf(bed, admission, now, clock)];
        }
        RowsStep(beds, i, admissions, now, clock);
        i := i + 1;
      }
      assert beds[..i] == beds;
      r := MapStats(categories, tabela);
    }

    /**
     * One bed's contribution to the counters: one more in its category's
     * total and, when the bed is occupied, one more in its occupied count.
     */
    static method CountBed(categories: map<Category, CatStats>, bed: Bed)
      returns (counted: map<Category, CatStats>)
      requires forall c :: c in categories
      ensures counted == BumpCategory(categories, bed)
    {
      var catKey := Classify(bed.bedType);
      counted := categories[catKey := categories[catKey].(total := categories[catKey].total + 1)];
      if bed.status == Ocupado {
        counted := counted[catKey := counted[catKey].(occupied := counted[catKey].occupied + 1)];
      }
    }

    /**
     * `getDashboardStats`: the bed map's category counts summed in a loop,
     * the rounded occupancy rate, today's admissions and the recent list.
     * The rate over the summed counts is the rate over the whole bed list.
     */
    method GetDashboardStats(now: int, clock: Clock) returns (r: DashboardStats)
      ensures r.leitos == GraficosOf(beds)
      ensures r.taxaOcupacao == OccupancyRate(OccupiedCount(beds), |beds|)
      ensures r.taxaOcupacao <= 100
      ensures r.admissoesHoje == AdmissionsToday(admissions, clock, now)
      ensures r.recentes == Recentes(Snapshot(), clock)
    {
      var mapStats := GetMapStats(now, clock);
      var total, occupied := SumCounts(mapStats.graficos);
      assert total == |beds| && occupied == OccupiedCount(beds) by {
        GraficosSums(beds);
      }
      var occupancyRate := if total > 0 then OccupancyRate(occupied, total) else 0;
      assert occupancyRate <= 100 by {
        OccupancyRateRounding(occupied, total);
      }
      var admissionsToday := AdmissionsToday(admissions, clock, now);
      r := DashboardStats(mapStats.graficos, occupancyRate, admissionsToday, Recentes(Snapshot(), clock));
    }

    /** `Object.values(graficos).forEach(...)`: the totals and the occupied counts summed. */
    static method SumCounts(graficos: map<Category, CatStats>) returns (total: nat, occupied: nat)
      requires forall c :: c in graficos
      ensures total == SumTotals(graficos, AllCategories)
      ensures occupied == SumOccupied(graficos, AllCategories)
    {
      total, occupied := 0, 0;
      var k := 0;
      while k < |AllCategories|
        invariant 0 <= k <= |AllCategories|
        invariant total == SumTotals(graficos, AllCategories[..k])
        invariant occupied == SumOccupied(graficos, AllCategories[..k])
      {
        var c := graficos[AllCategories[k]];
        total := total + c.total;
        occupied := occupied + c.occupied;
        assert AllCategories[..k + 1][..k] == AllCategories[..k];
        k := k + 1;
      }
      assert AllCategories[..k] == AllCategories;
    }

    /**
     * `getAdmissionDetails`: finds the admission, then its patient and its
     * bed, and answers not-found as soon as one of them is missing.
     */
    method GetAdmissionDetails(admissionId: string) returns (r: Details)
      ensures r == AdmissionDetails(Snapshot(), admissionId)
    {
      var admIdx := FindIndex(admissions, AdmissionWithId(admissionId));
      if admIdx < 0 {
        return NotFound;
      }
      var adm := admissions[admIdx];
      var patIdx := FindIndex(patients, PatientWithId(adm.patientId));
      var bedIdx := FindIndex(beds, BedWithId(adm.bedId));
      if patIdx < 0 || bedIdx < 0 {
        return NotFound;
      }
      var p, b := patients[patIdx], beds[bedIdx];
      r := Found(
        AdmissaoView(adm.id, adm.entryDate, adm.systemEntryDate,
                     Or(adm.diagnosis, "Não informado"), Or(adm.riskLevel.Name(), "-"),
                     Or(adm.isolation.Name(), "Não"), Or(adm.origin, "-"), adm.createdBy),
        LeitoView(b.id, "Leito " + b.number, b.bedType),
        PacienteView(p.id, p.internalId, p.name, p.cpf, p.susCard, p.birthDate, p.sex,
                     p.motherName, p.phone, p.address, OrElse(p.editedBy, "-")));
    }

    /**
     * `updatePatient`: finds the patient by index and overwrites it, then
     * copies the new name into the bed of the first active admission.
     */
    method UpdatePatient(req: Mutations.PatientUpdate) returns (success: bool)
      modifies this
      ensures Mutations.Outcome(success, Snapshot()) == Mutations.UpdatePatient(old(Snapshot()), req)
      ensures old(Mutations.BedsConsistent(beds)) ==> Mutations.BedsConsistent(beds)
    {
      ghost var before := Snapshot();
      var idx := FindIndex(patients, PatientWithId(req.pacienteId));
      if idx > -1 {
        patients := patients[idx := Mutations.EditedPatient(patients[idx], req)];
        var activeAdm := Find(admissions, ActiveAdmissionOf(req.pacienteId));
        if activeAdm.Some? {
          var bedIdx := FindIndex(beds, BedWithId(activeAdm.value.bedId));
          if bedIdx > -1 {
            beds := beds[bedIdx := beds[bedIdx].(currentPatientName := Some(req.nome))];
          }
        }
        success := true;
      } else {
        success := false;
      }
      if Mutations.BedsConsistent(before.beds) {
        Mutations.UpdateKeepsConsistency(before, req);
      }
    }

    /**
     * `dischargePatient`: the admission, the bed and the patient are each
     * found by index and updated only if found; the call always succeeds.
     * `admissionStamp` and `patientStamp` are the two clock readings it takes.
     */
    method DischargePatient(req: Mutations.Discharge, admissionStamp: string, patientStamp: string)
      returns (success: bool)
      modifies this
      ensures Mutations.Outcome(success, Snapshot())
           == Mutations.DischargePatient(old(Snapshot()), req, admissionStamp, patientStamp)
      ensures old(Mutations.BedsConsistent(beds)) ==> Mutations.BedsConsistent(beds)
    {
      ghost var before := Snapshot();
      var admIdx := FindIndex(admissions, AdmissionWithId(req.admissaoId));
      var bedIdx := FindIndex(beds, BedWithId(req.leitoId));
      var patIdx := FindIndex(patients, PatientWithId(req.pacienteId));

      if admIdx > -1 {
        admissions := admissions[admIdx := Mutations.ClosedAdmission(admissions[admIdx], req, admissionStamp)];
      }
      if bedIdx > -1 {
        beds := beds[bedIdx := Mutations.FreedBed(beds[bedIdx])];
      }
      if patIdx > -1 {
        patients := patients[patIdx := patients[patIdx].(lastDischargeDate := Some(patientStamp))];
      }
      success := true;
      if Mutations.BedsConsistent(before.beds) {
        Mutations.DischargeKeepsConsistency(before, req, admissionStamp, patientStamp);
      }
    }
  }
}

=== FILE: bedmap.dfy ===
/**
 * The pure helpers of the bed-map page: the doughnut slices of a category,
 * the table search, the birth-date fields of the edit form and the text
 * and defaults of the discharge form, with the option lists of its selects.
 */
module BedMap {
  import opened Js
  import opened Lookup
  import opened Domain
  import opened Stats
  import opened Mutations

  // ---------------------------------------------------------------------------
  // Doughnut slices
  // ---------------------------------------------------------------------------

  datatype ChartData = ChartData(
    labels: seq<string>,
    data: seq<int>,
    backgroundColor: seq<string>,
    borderWidth: int,
    cutout: string)

  /** Two slices, occupied then free, that together make up the category. */
  function GetChartData(occupied: int, total: int, color: string): (r: ChartData)
    ensures |r.labels| == |r.data| == |r.backgroundColor| == 2
    ensures r.data[0] == occupied && r.data[0] + r.data[1] == total
    ensures 0 <= occupied <= total ==> 0 <= r.data[0] && 0 <= r.data[1]
    ensures r.labels[0] == "Ocupados" && r.backgroundColor[0] == color
  {
    ChartData(["Ocupados", "Livres"], [occupied, total - occupied], [color, "#f5f5f5"], 0, "75%")
  }

  /** A bed of the category that is not occupied (free, cleaning, maintenance, blocked). */
  function NotOccupiedIn(c: Category): Bed -> bool
  {
    (b: Bed) => Classify(b.bedType) == c && b.status != Ocupado
  }

  /**
   * The doughnut of a category of the bed map: its first slice counts the
   * occupied beds of the category, its second the category's other beds,
   * and it is drawn in the category's colour.
   */
  lemma CategoryChart(beds: seq<Bed>, c: Category)
    ensures c in GraficosOf(beds)
    ensures var e := GraficosOf(beds)[c];
      var r := GetChartData(e.occupied, e.total, e.cor);
      && r.data[0] == Count(beds, OccupiedIn(c))
      && r.data[1] == Count(beds, NotOccupiedIn(c))
      && r.data[1] >= 0
      && r.backgroundColor[0] == c.Color()
  {
    GraficosEntry(beds, c);
    CountSplit(beds, InCategory(c), OccupiedIn(c), NotOccupiedIn(c));
  }

  // ---------------------------------------------------------------------------
  // Table search
  // ---------------------------------------------------------------------------

  /** The patient, the bed label or the bed type contains the search text, ignoring ASCII case. */
  function RowMatches(search: string): Row -> bool
  {
    (row: Row) =>
      || Contains(ToLower(row.paciente), ToLower(search))
      || Contains(ToLower(row.leito), ToLower(search))
      || Contains(ToLower(row.tipo), ToLower(search))
  }

  /** The rows the table shows: none before the bed map has loaded. */
  function GetFilteredTable(data: Option<MapStats>, search: string): (r: seq<Row>)
    ensures data.None? ==> r == []
    ensures data.Some? ==> |r| <= |data.value.tabela|
  {
    if data.None? then [] else Filter(data.value.tabela, RowMatches(search))
  }

  /** The shown rows appear in the table in the same order, each at most as often. */
  lemma FilteredTableIsSubsequence(m: MapStats, search: string)
    ensures IsSubsequence(GetFilteredTable(Some(m), search), m.tabela)
    ensures multiset(GetFilteredTable(Some(m), search)) <= multiset(m.tabela)
  {
    FilterIsSubsequence(m.tabela, RowMatches(search));
    FilterMultiset(m.tabela, RowMatches(search));
  }

  /** A row is shown exactly when it is in the table and one of its three columns matches. */
  lemma FilteredTableMember(m: MapStats, search: string, row: Row)
    ensures row in GetFilteredTable(Some(m), search) <==>
      && row in m.tabela
      && (|| Contains(ToLower(row.paciente), ToLower(search))
          || Contains(ToLower(row.leito), ToLower(search))
          || Contains(ToLower(row.tipo), ToLower(search)))
  {
    FilterMember(m.tabela, RowMatches(search), row);
  }

  /** An empty search shows the whole table. */
  lemma EmptySearchShowsAll(m: MapStats)
    ensures GetFilteredTable(Some(m), "") == m.tabela
  {
    forall k | 0 <= k < |m.tabela|
      ensures RowMatches("")(m.tabela[k])
    {
      ContainsEmpty(ToLower(m.tabela[k].paciente));
    }
    FilterAll(m.tabela, RowMatches(""));
  }

  /** Searching the shown rows again with the same text shows the same rows. */
  lemma SearchIdempotent(m: MapStats, search: string)
    ensures var shown := GetFilteredTable(Some(m), search);
      GetFilteredTable(Some(m.(tabela := shown)), search) == shown
  {
    FilterIdempotent(m.tabela, RowMatches(search));
  }

  /** Lowering the search text first changes nothing. */
  lemma SearchIgnoresCase(data: Option<MapStats>, search: string)
    ensures GetFilteredTable(data, ToLower(search)) == GetFilteredTable(data, search)
  {
    ToLowerIdempotent(search);
    if data.Some? {
      FilterAgree(data.value.tabela, RowMatches(ToLower(search)), RowMatches(search));
    }
  }

  // ---------------------------------------------------------------------------
  // Birth date in the edit form
  // ---------------------------------------------------------------------------

  /**
   * The edit form. The three date fields hold what array destructuring
   * leaves in them: `None` where `split` gave fewer parts (`undefined`).
   */
  datatype EditForm = EditForm(
    nome: string, cpf: string, sus: string,
    dia: Option<string>, mes: Option<string>, ano: Option<string>,
    sexo: string, mae: string, tel: string, end: string, pid: string)

  /** Part `k` of a split, or `undefined` when there are fewer parts. */
  function PartAt(parts: seq<string>, k: nat): (o: Option<string>)
    ensures o.Some? <==> k < |parts|
    ensures o.Some? ==> o.value == parts[k]
  {
    if k < |parts| then Some(parts[k]) else None
  }

  /** The form filled from the details of a patient; the date is split only when it has ten characters. */
  function Prefill(p: PacienteView): EditForm
  {
    var parts := Split(p.nasc, '-');
    var tenChars := p.nasc != "" && |p.nasc| == 10;
    var ano := if tenChars then PartAt(parts, 0) else Some("");
    var mes := if tenChars then PartAt(parts, 1) else Some("");
    var dia := if tenChars then PartAt(parts, 2) else Some("");
    EditForm(p.nome, p.cpf, p.sus, dia, mes, ano, p.sexo, p.mae, p.telefone, p.endereco, p.id)
  }

  /** The request the form sends: the date fields are concatenated as `YYYYMMDD`. */
  function SaveRequest(f: EditForm): PatientUpdate
  {
    PatientUpdate(f.pid, f.nome, f.cpf, f.sus,
                  Interpolate(f.ano) + Interpolate(f.mes) + Interpolate(f.dia),
                  f.sexo, f.mae, f.tel, f.end)
  }

  /** `YYYY-MM-DD`: four, two and two digits separated by dashes. */
  predicate IsoDate(s: string)
  {
    && |s| == 10 && s[4] == '-' && s[7] == '-'
    && AllDigits(s[..4]) && AllDigits(s[5..7]) && AllDigits(s[8..])
  }

  /** The first occurrence of `c` is at `i` when `s[i]` is `c` and no earlier character is. */
  lemma IndexOfAt(s: string, c: char, i: int)
    requires 0 <= i < |s| && s[i] == c && c !in s[..i]
    ensures IndexOf(s, c) == i
  {
    assert s[i] in s;
  }

  /** A string of digits holds no dash. */
  lemma DigitsHaveNoDash(s: string)
    requires AllDigits(s)
    ensures '-' !in s
  {
  }

  /** An ISO date splits on its dashes into year, month and day. */
  lemma SplitIsoDate(s: string)
    requires IsoDate(s)
    ensures Split(s, '-') == [s[..4], s[5..7], s[8..]]
  {
    DigitsHaveNoDash(s[..4]);
    DigitsHaveNoDash(s[5..7]);
    DigitsHaveNoDash(s[8..]);
    IndexOfAt(s, '-', 4);
    var t := s[5..];
    assert t[..2] == s[5..7] && t[2] == '-' && t[3..] == s[8..];
    IndexOfAt(t, '-', 2);
    var u := s[8..];
    assert Split(u, '-') == [u];
    assert Split(t, '-') == [t[..2]] + Split(u, '-');
    assert Split(s, '-') == [s[..4]] + Split(t, '-');
  }

  /** The date fields filled from an ISO birth date: year, month and day. */
  lemma PrefillIsoDate(p: PacienteView)
    requires IsoDate(p.nasc)
    ensures var f := Prefill(p);
      f.ano == Some(p.nasc[..4]) && f.mes == Some(p.nasc[5..7]) && f.dia == Some(p.nasc[8..])
  {
    SplitIsoDate(p.nasc);
  }

  /** A birth date of any other length leaves the three date fields empty. */
  lemma PrefillOtherLength(p: PacienteView)
    requires |p.nasc| != 10
    ensures var f := Prefill(p);
      f.ano == Some("") && f.mes == Some("") && f.dia == Some("")
    ensures SaveRequest(Prefill(p)).nasc == ""
  {
  }

  /** Saving the form as filled writes back the ISO birth date it was filled from. */
  lemma BirthDateRoundTrip(p: PacienteView, previous: string)
    requires IsoDate(p.nasc)
    ensures ReformatBirthDate(SaveRequest(Prefill(p)).nasc, previous) == p.nasc
  {
    PrefillIsoDate(p);
    var s := p.nasc;
    var sent := SaveRequest(Prefill(p)).nasc;
    assert sent == s[..4] + s[5..7] + s[8..];
    var r := ReformatBirthDate(sent, previous);
    assert sent[..8] == sent;
    assert r[..4] == s[..4] && r[5..7] == s[5..7] && r[8..] == s[8..] by {
      assert r[..4] + r[5..7] + r[8..] == sent;
    }
    assert r == r[..4] + [r[4]] + r[5..7] + [r[7]] + r[8..];
    assert s == s[..4] + [s[4]] + s[5..7] + [s[7]] + s[8..];
  }

  /**
   * Saving the form unchanged leaves the patient record as it was, apart from
   * the editor, whenever the stored birth date is ISO or not ten characters long.
   */
  lemma SaveUnchangedForm(p: Patient)
    requires IsoDate(p.birthDate) || |p.birthDate| != 10
    ensures EditedPatient(p, SaveRequest(Prefill(PacienteViewOf(p)))) == p.(editedBy := Some("Admin"))
  {
    if IsoDate(p.birthDate) {
      BirthDateRoundTrip(PacienteViewOf(p), p.birthDate);
    }
  }

  /**
   * The case `SaveUnchangedForm` leaves out: a ten-character date without
   * dashes fills only the year, the two missing parts are interpolated as
   * `undefined`, and the reformatted date is not the stored one.
   */
  lemma NonIsoDateSaved(p: Patient)
    requires p.birthDate == "15/05/1980"
    ensures SaveRequest(Prefill(PacienteViewOf(p))).nasc == "15/05/1980undefinedundefined"
    ensures EditedPatient(p, SaveRequest(Prefill(PacienteViewOf(p)))).birthDate == "15/0-5/-19"
    ensures EditedPatient(p, SaveRequest(Prefill(PacienteViewOf(p)))) != p.(editedBy := Some("Admin"))
  {
    var v := PacienteViewOf(p);
    PrefillWithoutDash(v);
    NonIsoReformat(p.birthDate);
  }

  /** A ten-character date without dashes fills only the year, and the request carries it with two `undefined`s. */
  lemma PrefillWithoutDash(v: PacienteView)
    requires |v.nasc| == 10 && '-' !in v.nasc
    ensures SaveRequest(Prefill(v)).nasc == v.nasc + "undefined" + "undefined"
  {
    assert IndexOf(v.nasc, '-') == -1;
    assert Split(v.nasc, '-') == [v.nasc];
  }

  /** The reformat of what `NonIsoDateSaved` sends. */
  lemma NonIsoReformat(s: string)
    requires s == "15/05/1980"
    ensures s + "undefined" + "undefined" == "15/05/1980undefinedundefined"
    ensures ReformatBirthDate(s + "undefined" + "undefined", s) == "15/0-5/-19"
    ensures "15/0-5/-19" != s
  {
    var sent := s + "undefined" + "undefined";
    assert |sent| == 28;
    assert Clamp(4, 28) == 4 && Clamp(6, 28) == 6 && Clamp(8, 28) == 8;
    assert sent[..4] == s[..4] == "15/0";
    assert sent[4..6] == s[4..6] == "5/";
    assert sent[6..8] == s[6..8] == "19";
    assert "15/0-5/-19"[4] != s[4];
  }

  /**
   * The form of a details screen that was found names a stored patient, so
   * saving it succeeds.
   */
  lemma SaveFromDetailsSucceeds(db: Db, admissionId: string, f: EditForm)
    requires AdmissionDetails(db, admissionId).Found?
    requires f.pid == Prefill(AdmissionDetails(db, admissionId).paciente).pid
    ensures UpdatePatient(db, SaveRequest(f)).success
  {
    var d := AdmissionDetails(db, admissionId);
    var p :| p in db.patients && d.paciente == PacienteViewOf(p);
    var k :| 0 <= k < |db.patients| && db.patients[k] == p;
    assert db.patients[k].id == SaveRequest(f).pacienteId;
  }

  /** A day left unselected sends six characters, and the stored date loses its day. */
  lemma PartialDateExample(previous: string)
    ensures SaveRequest(EditForm("", "", "", Some(""), Some("05"), Some("1980"), "", "", "", "", "")).nasc == "198005"
    ensures ReformatBirthDate("198005", previous) == "1980-05-"
  {
    var nasc := "198005";
    assert Clamp(4, 6) == 4 && Clamp(6, 6) == 6 && Clamp(8, 6) == 6;
    assert nasc[..4] == "1980" && nasc[4..6] == "05" && nasc[6..6] == "";
  }

  /**
   * Five characters, which the form's selects never send but a stored date
   * such as `1980--1-23` or a direct call can, store a partial date too.
   */
  lemma ShortDateExample(previous: string)
    ensures ReformatBirthDate("19800", previous) == "1980-0-"
  {
    var nasc := "19800";
    assert Clamp(4, 5) == 4 && Clamp(6, 5) == 5 && Clamp(8, 5) == 5;
    assert nasc[..4] == "1980" && nasc[4..5] == "0" && nasc[5..5] == "";
  }

  // ---------------------------------------------------------------------------
  // Discharge form
  // ---------------------------------------------------------------------------

  datatype DischargeForm = DischargeForm(
    dia: string, mes: string, ano: string, hora: string, min: string, detalhes: string)

  /** The event text `dia/mes/ano hora:min`. */
  function EventText(f: DischargeForm): (s: string)
    ensures |s| == |f.dia| + |f.mes| + |f.ano| + |f.hora| + |f.min| + 4
    ensures s[..|f.dia|] == f.dia && s[|f.dia|] == '/'
    ensures s[|s| - |f.min|..] == f.min && s[|s| - |f.min| - 1] == ':'
  {
    f.dia + "/" + f.mes + "/" + f.ano + " " + f.hora + ":" + f.min
  }

  /**
   * The request sent when the discharge is confirmed: the ids of the
   * admission, bed and patient on screen, the chosen type, the event text
   * and the notes; nothing is sent while no details are loaded.
   */
  function DischargeRequest(details: Details, dischargeType: string, f: DischargeForm): (r: Option<Discharge>)
    ensures details.NotFound? <==> r.None?
    ensures r.Some? ==>
      && r.value.admissaoId == details.admissao.id
      && r.value.leitoId == details.leito.id
      && r.value.pacienteId == details.paciente.id
      && r.value.tipoAlta == dischargeType && r.value.detalhesTexto == f.detalhes
      && r.value.dataEvento == EventText(f)
  {
    if details.NotFound? then None
    else Some(Discharge(details.admissao.id, details.leito.id, details.paciente.id,
                        dischargeType, EventText(f), f.detalhes))
  }

  /** The date and time fields of the form make no difference to the discharge. */
  lemma DischargeIgnoresForm(db: Db, details: Details, dischargeType: string,
                             f: DischargeForm, g: DischargeForm, s1: string, s2: string)
    requires details.Found?
    requires f.detalhes == g.detalhes
    ensures var rf, rg := DischargeRequest(details, dischargeType, f), DischargeRequest(details, dischargeType, g);
      DischargePatient(db, rf.value, s1, s2) == DischargePatient(db, rg.value, s1, s2)
  {
    var rf := DischargeRequest(details, dischargeType, f).value;
    DischargeIgnoresEventDate(db, rf, EventText(g), s1, s2);
  }

  /** The fields preset when the discharge screen opens: the clock's date and time, zero-padded. */
  function DischargeDefaults(prev: DischargeForm, t: LocalTime): DischargeForm
  {
    prev.(dia := Pad2(t.day), mes := Pad2(t.month + 1), ano := IntToString(t.year),
          hora := Pad2(t.hour), min := Pad2(t.minute))
  }

  /** With two-character fields, the separators and the fields sit at fixed places from either end. */
  lemma EventTextLayout(f: DischargeForm)
    requires |f.dia| == 2 && |f.mes| == 2 && |f.hora| == 2 && |f.min| == 2
    ensures var s := EventText(f);
      && |s| == 12 + |f.ano| && s[2] == '/' && s[5] == '/' && s[|s| - 3] == ':'
      && s[..2] == f.dia && s[3..5] == f.mes
      && s[|s| - 5..|s| - 3] == f.hora && s[|s| - 2..] == f.min
  {
    var s := EventText(f);
    var head, tail := f.dia + "/" + f.mes + "/", f.ano + " " + f.hora + ":" + f.min;
    assert s == head + tail;
    assert s[..6] == head;
    assert head[..2] == f.dia && head[3..5] == f.mes;
    assert s[|s| - 6..] == " " + f.hora + ":" + f.min;
  }

  /** Two-digit fields read back from their places in the event text. */
  lemma EventTextReadsBack(f: DischargeForm, day: int, month: int, hour: int, minute: int)
    requires |f.dia| == 2 && AllDigits(f.dia) && DigitsValue(f.dia) == day
    requires |f.mes| == 2 && AllDigits(f.mes) && DigitsValue(f.mes) == month
    requires |f.hora| == 2 && AllDigits(f.hora) && DigitsValue(f.hora) == hour
    requires |f.min| == 2 && AllDigits(f.min) && DigitsValue(f.min) == minute
    ensures var s := EventText(f);
      && |s| >= 12 && s[2] == '/' && s[5] == '/' && s[|s| - 3] == ':'
      && AllDigits(s[..2]) && DigitsValue(s[..2]) == day
      && AllDigits(s[3..5]) && DigitsValue(s[3..5]) == month
      && AllDigits(s[|s| - 5..|s| - 3]) && DigitsValue(s[|s| - 5..|s| - 3]) == hour
      && AllDigits(s[|s| - 2..]) && DigitsValue(s[|s| - 2..]) == minute
  {
    EventTextLayout(f);
  }

  /**
   * The preset fields are the options of the clock's day, month, hour and
   * minute, and the year offered first; with `OptionLists` and
   * `EventTextReadsBack`, the preset event text reads back as that instant.
   */
  lemma DefaultsAreOptions(prev: DischargeForm, t: LocalTime)
    requires t.Valid()
    ensures var f := DischargeDefaults(prev, t);
      && f.dia == Days()[t.day - 1] && f.mes == MonthValues()[t.month]
      && f.hora == Hours()[t.hour] && f.min == Mins()[t.minute]
      && f.ano == Years(t.year)[0] && f.detalhes == prev.detalhes
  {
    DefaultDay(prev, t);
    DefaultMonth(prev, t);
    DefaultTime(prev, t);
    DefaultYear(prev, t);
  }

  lemma DefaultDay(prev: DischargeForm, t: LocalTime)
    requires t.Valid()
    ensures DischargeDefaults(prev, t).dia == Days()[t.day - 1]
  {
    DayEntry(t.day);
  }

  lemma DefaultMonth(prev: DischargeForm, t: LocalTime)
    requires t.Valid()
    ensures DischargeDefaults(prev, t).mes == MonthValues()[t.month]
  {
    MonthEntry(t.month);
  }

  lemma DefaultYear(prev: DischargeForm, t: LocalTime)
    ensures DischargeDefaults(prev, t).ano == Years(t.year)[0]
  {
    YearEntry(t.year);
  }

  lemma DefaultTime(prev: DischargeForm, t: LocalTime)
    requires t.Valid()
    ensures var f := DischargeDefaults(prev, t);
      && f.hora == Hours()[t.hour] && f.min == Mins()[t.minute] && f.detalhes == prev.detalhes
  {
    HourEntry(t.hour);
    MinuteEntry(t.minute);
  }

  // ---------------------------------------------------------------------------
  // Option lists
  // ---------------------------------------------------------------------------

  /** The `n` two-digit fields from `from` up, as the `Array.from` calls build them. */
  function PaddedRange(n: nat, from: nat): seq<string>
  {
    seq(n, i requires 0 <= i < n => Pad2(i + from))
  }

  function Days(): seq<string>
  {
    PaddedRange(31, 1)
  }

  function MonthValues(): seq<string>
  {
    PaddedRange(12, 1)
  }

  const MonthNames: seq<string> := ["Jan", "Fev", "Mar", "Abr", "Mai", "Jun", "Jul", "Ago", "Set", "Out", "Nov", "Dez"]

  /** A month option of the select: the value sent and the text shown. */
  datatype MonthOption = MonthOption(value: string, text: string)

  /** Month `k` is offered as the value `k + 1` padded to two digits, labelled by its name. */
  function MonthOptions(): seq<MonthOption>
  {
    seq(12, i requires 0 <= i < 12 => MonthOption(Pad2(i + 1), MonthNames[i]))
  }

  /** The hundred years offered, from `current` back. */
  function Years(current: int): seq<string>
  {
    seq(100, i requires 0 <= i < 100 => IntToString(current - i))
  }

  function Hours(): seq<string>
  {
    PaddedRange(24, 0)
  }

  function Mins(): seq<string>
  {
    PaddedRange(60, 0)
  }

  lemma DayEntry(n: int)
    requires 1 <= n <= 31
    ensures Days()[n - 1] == Pad2(n)
  {
  }

  lemma MonthEntry(k: int)
    requires 0 <= k < 12
    ensures MonthValues()[k] == Pad2(k + 1)
  {
  }

  lemma HourEntry(k: int)
    requires 0 <= k < 24
    ensures Hours()[k] == Pad2(k)
  {
  }

  lemma MinuteEntry(k: int)
    requires 0 <= k < 60
    ensures Mins()[k] == Pad2(k)
  {
  }

  lemma YearEntry(current: int)
    ensures Years(current)[0] == IntToString(current)
  {
  }

  /** Entry `k` of a list of two-digit fields reads back as `k + offset`. */
  predicate TwoDigitList(s: seq<string>, offset: nat)
  {
    forall k :: 0 <= k < |s| ==> |s[k]| == 2 && AllDigits(s[k]) && DigitsValue(s[k]) == k + offset
  }

  /** Days `01`..`31`, months `01`..`12`, hours `00`..`23`, minutes `00`..`59`. */
  lemma OptionLists()
    ensures |Days()| == 31 && TwoDigitList(Days(), 1)
    ensures |MonthValues()| == 12 && |MonthNames| == 12 && TwoDigitList(MonthValues(), 1)
    ensures |Hours()| == 24 && TwoDigitList(Hours(), 0)
    ensures |Mins()| == 60 && TwoDigitList(Mins(), 0)
  {
    PaddedRangeDigits(31, 1);
    PaddedRangeDigits(12, 1);
    PaddedRangeDigits(24, 0);
    PaddedRangeDigits(60, 0);
  }

  /** Every field of a padded range below 100 is two digits reading back as its value. */
  lemma PaddedRangeDigits(n: nat, from: nat)
    requires n + from <= 100
    ensures |PaddedRange(n, from)| == n && TwoDigitList(PaddedRange(n, from), from)
  {
    var r := PaddedRange(n, from);
    forall k | 0 <= k < n
      ensures |r[k]| == 2 && AllDigits(r[k]) && DigitsValue(r[k]) == k + from
    {
      var v := k + from;
      assert r[k] == Pad2(v);
      Pad2Value(v);
    }
  }

  /** The twelve month options carry pairwise different labels and values, value `k + 1` at entry `k`. */
  lemma MonthOptionsDistinct()
    ensures |MonthOptions()| == 12
    ensures forall k :: 0 <= k < 12 ==> MonthOptions()[k].text == MonthNames[k]
    ensures forall k :: 0 <= k < 12 ==> MonthNumber(MonthOptions()[k].text) == k + 1
    ensures forall k :: 0 <= k < 12 ==>
      |MonthOptions()[k].value| == 2 && AllDigits(MonthOptions()[k].value) && DigitsValue(MonthOptions()[k].value) == k + 1
    ensures forall i, j :: 0 <= i < j < 12 ==> MonthOptions()[i].text != MonthOptions()[j].text
    ensures forall i, j :: 0 <= i < j < 12 ==> MonthOptions()[i].value != MonthOptions()[j].value
  {
    OptionLists();
    forall k | 0 <= k < 12 ensures MonthOptions()[k].value == MonthValues()[k] {
    }
    forall k | 0 <= k < 12 ensures MonthNumber(MonthNames[k]) == k + 1 {
      assert k == 0 || k == 1 || k == 2 || k == 3 || k == 4 || k == 5
        || k == 6 || k == 7 || k == 8 || k == 9 || k == 10 || k == 11;
    }
  }

  /**
   * The month a label names, counted from 1; 0 for no label of the select.
   * The page has no such function: it is the inverse that shows the labels
   * distinct in `MonthOptionsDistinct`.
   */
  function MonthNumber(name: string): nat
  {
    if name == "Jan" then 1 else if name == "Fev" then 2 else if name == "Mar" then 3
    else if name == "Abr" then 4 else if name == "Mai" then 5 else if name == "Jun" then 6
    else if name == "Jul" then 7 else if name == "Ago" then 8 else if name == "Set" then 9
    else if name == "Out" then 10 else if name == "Nov" then 11 else if name == "Dez" then 12
    else 0
  }

  /** The years run down from the current one, one per entry. */
  lemma YearsCountDown(current: int)
    requires current >= 99
    ensures |Years(current)| == 100
    ensures forall k :: 0 <= k < 100 ==> Years(current)[k] == NatToString(current - k)
  {
    forall k | 0 <= k < 100
      ensures Years(current)[k] == NatToString(current - k)
    {
      assert Years(current)[k] == IntToString(current - k);
    }
  }
}

=== FILE: domain.dfy ===
/**
 * The records of the bed-management store: patients, beds and admissions,
 * with the enumerations they use.
 *
 * Instants are integer milliseconds since the epoch (what `Date.getTime()`
 * returns); their reading on the local wall clock is supplied by a `Clock`.
 */
module Domain {
  import opened Js

  datatype BedStatus = Livre | Ocupado | Higienizacao | Manutencao | Bloqueado

  datatype Sector = Internacao | Emergencia

  datatype RiskLevel = Vermelho | Laranja | Amarelo | Verde | Azul
  {
    function Name(): (s: string)
      ensures s != ""
    {
      match this
      case Vermelho => "Vermelho"
      case Laranja => "Laranja"
      case Amarelo => "Amarelo"
      case Verde => "Verde"
      case Azul => "Azul"
    }
  }

  datatype IsolationType = Nenhum | Contato | Aerossol | Goticulas
  {
    function Name(): (s: string)
      ensures s != ""
    {
      match this
      case Nenhum => "Nenhum"
      case Contato => "Contato"
      case Aerossol => "Aerossol"
      case Goticulas => "Gotículas"
    }
  }

  /** `internado` is the only active status; the others end a stay. */
  datatype AdmissionStatus = Internado | Alta | Obito | Evasao | Transferido

  /** The four declared bed types; the `type` field itself is free text. */
  const TypeClinico: string := "Clínico"
  const TypeIsolamento: string := "Isolamento (TB)"
  const TypeObservacao: string := "Observação"
  const TypeEstabilizacao: string := "Estabilização"

  datatype Patient = Patient(
    id: string,
    internalId: string,
    name: string,
    cpf: string,
    susCard: string,
    birthDate: string,          // YYYY-MM-DD
    motherName: string,
    sex: string,                // 'Masculino' | 'Feminino', written as received
    phone: string,
    address: string,
    lastDischargeDate: Option<string>,
    age: Option<string>,
    editedBy: Option<string>)

  datatype Bed = Bed(
    id: string,
    number: string,
    title: string,
    bedType: string,
    sector: Sector,
    status: BedStatus,
    currentAdmissionId: Option<string>,
    currentPatientName: Option<string>,
    notes: Option<string>)

  datatype Admission = Admission(
    id: string,
    patientId: string,
    bedId: string,
    entryDate: int,             // clinician-entered entry instant
    systemEntryDate: int,       // instant the record was created
    origin: string,
    riskLevel: RiskLevel,
    isolation: IsolationType,
    diagnosis: string,
    status: AdmissionStatus,
    dischargeDate: Option<string>,
    dischargeDestination: Option<string>,
    dischargeNotes: Option<string>,
    createdBy: string)

  /** The three module-level collections, as one value. */
  datatype Db = Db(patients: seq<Patient>, beds: seq<Bed>, admissions: seq<Admission>)

  /** A local wall-clock reading; `month` is 0-based, as `Date.getMonth()`. */
  datatype LocalTime = LocalTime(year: int, month: int, day: int, hour: int, minute: int)
  {
    predicate Valid() {
      0 <= month < 12 && 1 <= day <= 31 && 0 <= hour < 24 && 0 <= minute < 60
    }
  }

  /** The local-time reading of an instant (time zone and calendar are not modelled). */
  type Clock = int -> LocalTime

  // Lookup predicates, named so that every use denotes the same function.

  function PatientWithId(id: string): Patient -> bool
  {
    (p: Patient) => p.id == id
  }

  function BedWithId(id: string): Bed -> bool
  {
    (b: Bed) => b.id == id
  }

  function AdmissionWithId(id: string): Admission -> bool
  {
    (a: Admission) => a.id == id
  }

  /** `a.id === bed.currentAdmissionId`, where the reference may be undefined. */
  function AdmissionReferencedBy(ref: Option<string>): Admission -> bool
  {
    (a: Admission) => Some(a.id) == ref
  }

  /** `a.patientId === id && a.status === 'internado'`. */
  function ActiveAdmissionOf(patientId: string): Admission -> bool
  {
    (a: Admission) => a.patientId == patientId && a.status == Internado
  }

  predicate IsActive(a: Admission)
  {
    a.status == Internado
  }

  predicate IsOccupied(b: Bed)
  {
    b.status == Ocupado
  }
}

=== FILE: js.dfy ===
/**
 * The handful of JavaScript built-ins the bed-management core relies on,
 * written out with their JavaScript meaning: `undefined`, the `||` fallback,
 * `Number.prototype.toString`, `String.prototype.padStart`, `includes`,
 * `substring`, `split`, ASCII `toLowerCase`, and the truncating `%`.
 */
module Js {

  /** An optional field (`field?: T`); `None` is JavaScript's `undefined`. */
  datatype Option<+T> = None | Some(value: T)

  // ---------------------------------------------------------------------------
  // Fallbacks: `x || d`
  // ---------------------------------------------------------------------------

  /** `s || d` for a string: the empty string is falsy. */
  function Or(s: string, d: string): (r: string)
    ensures d != "" ==> r != ""
    ensures r == s || r == d
  {
    if s != "" then s else d
  }

  /** `o || d` for an optional string: `undefined` and `''` are both falsy. */
  function OrElse(o: Option<string>, d: string): (r: string)
    ensures d != "" ==> r != ""
    ensures o.Some? && o.value != "" ==> r == o.value
    ensures (o.None? || o.value == "") ==> r == d
  {
    match o
    case Some(s) => Or(s, d)
    case None => d
  }

  /** What a template literal `${x}` prints for a possibly-undefined string. */
  function Interpolate(o: Option<string>): string
  {
    match o
    case Some(s) => s
    case None => "undefined"
  }

  // ---------------------------------------------------------------------------
  // Numbers as text
  // ---------------------------------------------------------------------------

  predicate IsDigit(c: char)
  {
    '0' <= c <= '9'
  }

  predicate AllDigits(s: string)
  {
    forall i :: 0 <= i < |s| ==> IsDigit(s[i])
  }

  function DigitChar(d: nat): (c: char)
    requires d < 10
    ensures IsDigit(c)
  {
    ('0' as int + d) as char
  }

  /** The number a string of decimal digits denotes (most significant first). */
  function DigitsValue(s: string): nat
    requires AllDigits(s)
  {
    if s == [] then 0
    else DigitsValue(s[..|s| - 1]) * 10 + (s[|s| - 1] as int - '0' as int)
  }

  /** `n.toString()` for a non-negative integer: decimal, no leading zeros. */
  function NatToString(n: nat): (s: string)
    ensures |s| >= 1 && AllDigits(s)
    ensures s[0] == '0' ==> n == 0
    ensures n < 10 <==> |s| == 1
  {
    if n < 10 then [DigitChar(n)]
    else NatToString(n / 10) + [DigitChar(n % 10)]
  }

  /** `toString` and `DigitsValue` are inverse: the text denotes the number. */
  lemma {:induction false} NatToStringValue(n: nat)
    ensures DigitsValue(NatToString(n)) == n
  {
    if n >= 10 {
      var s := NatToString(n);
      assert s[..|s| - 1] == NatToString(n / 10);
      NatToStringValue(n / 10);
    }
  }

  /** `i.toString()` for any integer: a leading '-' for negatives. */
  function IntToString(i: int): (s: string)
    ensures i >= 0 ==> s == NatToString(i)
    ensures i < 0 ==> |s| >= 2 && s[0] == '-' && s[1..] == NatToString(-i)
  {
    if i < 0 then "-" + NatToString(-i) else NatToString(i)
  }

  /** `s.padStart(width, [pad])`: left-pad to `width` characters, never truncate. */
  function PadStart(s: string, width: nat, pad: char): (r: string)
    ensures |r| == if |s| >= width then |s| else width
    ensures r[|r| - |s|..] == s
    ensures forall k :: 0 <= k < |r| - |s| ==> r[k] == pad
    decreases width - |s|
  {
    if |s| >= width then s else PadStart([pad] + s, width, pad)
  }

  /** `n.toString().padStart(2, '0')`. */
  function Pad2(n: int): string
  {
    PadStart(IntToString(n), 2, '0')
  }

  /** A two-digit field: exactly two digits that read back as `n`. */
  lemma Pad2Value(n: int)
    requires 0 <= n < 100
    ensures |Pad2(n)| == 2 && AllDigits(Pad2(n))
    ensures DigitsValue(Pad2(n)) == n
  {
    var s := NatToString(n);
    NatToStringValue(n);
    if n < 10 {
      var r := Pad2(n);
      assert r == ['0'] + s;
      assert r[..1] == ['0'];
      assert DigitsValue(r[..1]) == 0 by {
        assert r[..1][..0] == [];
      }
      assert DigitsValue(s) == s[0] as int - '0' as int by {
        assert s[..0] == [];
      }
    }
  }

  // ---------------------------------------------------------------------------
  // Substrings
  // ---------------------------------------------------------------------------

  predicate OccursAt(s: string, t: string, i: int)
  {
    0 <= i && i + |t| <= |s| && s[i..i + |t|] == t
  }

  /** `s.includes(t)`. */
  function Contains(s: string, t: string): bool
  {
    if |t| > |s| then false
    else if s[..|t|] == t then true
    else Contains(s[1..], t)
  }

  /** `includes` holds exactly when `t` occurs somewhere in `s`. */
  lemma {:induction false} ContainsIff(s: string, t: string)
    ensures Contains(s, t) <==> exists i :: OccursAt(s, t, i)
  {
    if |t| > |s| {
    } else if s[..|t|] == t {
      assert OccursAt(s, t, 0);
    } else {
      ContainsIff(s[1..], t);
      if Contains(s[1..], t) {
        var j :| OccursAt(s[1..], t, j);
        assert s[j + 1..j + 1 + |t|] == s[1..][j..j + |t|];
        assert OccursAt(s, t, j + 1);
      }
      if i :| OccursAt(s, t, i) {
        assert i != 0;
        assert s[1..][i - 1..i - 1 + |t|] == s[i..i + |t|];
        assert OccursAt(s[1..], t, i - 1);
      }
    }
  }

  /** A string occurs in itself followed by anything. */
  lemma ContainsPrefix(t: string, rest: string)
    ensures Contains(t + rest, t)
  {
    assert (t + rest)[..|t|] == t;
  }

  /** The empty string occurs in every string (`s.includes('')`). */
  lemma ContainsEmpty(s: string)
    ensures Contains(s, "")
  {
    assert s[..0] == "";
  }

  /** An index clamped to `[0, len]`, as `substring` treats its bounds. */
  function Clamp(n: int, len: nat): (c: nat)
    ensures c <= len
    ensures 0 <= n <= len ==> c == n
  {
    if n < 0 then 0 else if n > len then len else n
  }

  /** `s.substring(start, end)`: both bounds clamped to `[0, |s|]`, swapped if reversed. */
  function Substring(s: string, start: int, end: int): (r: string)
    ensures var a, b := Clamp(start, |s|), Clamp(end, |s|);
      && (a <= b ==> r == s[a..b])
      && (b < a ==> r == s[b..a])
  {
    var a := if start < 0 then 0 else if start > |s| then |s| else start;
    var b := if end < 0 then 0 else if end > |s| then |s| else end;
    if a <= b then s[a..b] else s[b..a]
  }

  // ---------------------------------------------------------------------------
  // Splitting on one character
  // ---------------------------------------------------------------------------

  /** `s.indexOf(c)`: first position of `c`, or -1. */
  function IndexOf(s: string, c: char): (i: int)
    ensures -1 <= i < |s|
    ensures i == -1 <==> c !in s
    ensures 0 <= i ==> s[i] == c && c !in s[..i]
  {
    if s == [] then -1
    else if s[0] == c then 0
    else
      var j := IndexOf(s[1..], c);
      assert j >= 0 ==> s[..j + 1] == [s[0]] + s[1..][..j];
      if j < 0 then -1 else j + 1
  }

  /** `s.split(c)` for a one-character separator. */
  function Split(s: string, c: char): (parts: seq<string>)
    ensures |parts| >= 1
    ensures forall k :: 0 <= k < |parts| ==> c !in parts[k]
    decreases |s|
  {
    var i := IndexOf(s, c);
    if i < 0 then [s] else [s[..i]] + Split(s[i + 1..], c)
  }

  /** `parts.join(c)`. */
  function Join(parts: seq<string>, c: char): string
  {
    if parts == [] then ""
    else if |parts| == 1 then parts[0]
    else parts[0] + [c] + Join(parts[1..], c)
  }

  /** Splitting and joining on the same character gives the string back. */
  lemma {:induction false} SplitJoin(s: string, c: char)
    ensures Join(Split(s, c), c) == s
    decreases |s|
  {
    var i := IndexOf(s, c);
    if i < 0 {
      assert Split(s, c) == [s];
    } else {
      var rest := Split(s[i + 1..], c);
      SplitJoin(s[i + 1..], c);
      JoinCons(s[..i], rest, c);
      assert s == s[..i] + [c] + s[i + 1..];
    }
  }

  lemma JoinCons(first: string, rest: seq<string>, c: char)
    requires |rest| >= 1
    ensures Join([first] + rest, c) == first + [c] + Join(rest, c)
  {
    assert ([first] + rest)[1..] == rest;
  }

  // ---------------------------------------------------------------------------
  // Case folding and remainders
  // ---------------------------------------------------------------------------

  /** `toLowerCase` restricted to ASCII letters. */
  function LowerChar(c: char): (r: char)
    ensures !('A' <= r <= 'Z')
  {
    if 'A' <= c <= 'Z' then (c as int - 'A' as int + 'a' as int) as char else c
  }

  function ToLower(s: string): (r: string)
    ensures |r| == |s|
    ensures forall k :: 0 <= k < |s| ==> r[k] == LowerChar(s[k])
  {
    seq(|s|, k requires 0 <= k < |s| => LowerChar(s[k]))
  }

  /** Lower-casing twice is lower-casing once. */
  lemma ToLowerIdempotent(s: string)
    ensures ToLower(ToLower(s)) == ToLower(s)
  {
  }

  /** JavaScript's `a % b` for `b > 0`: the remainder takes the sign of `a`. */
  function JsRem(a: int, b: int): (r: int)
    requires b > 0
    ensures a >= 0 ==> 0 <= r < b
    ensures a < 0 ==> -b < r <= 0
    ensures (a - r) % b == 0
  {
    if a >= 0 then
      assert a - a % b == b * (a / b);
      MultipleMod(a / b, b);
      a % b
    else
      assert a + (-a) % b == -(b * ((-a) / b)) == b * (-((-a) / b));
      MultipleMod(-((-a) / b), b);
      -((-a) % b)
  }

  /** A multiple of `b` leaves no remainder. */
  lemma MultipleMod(q: int, b: int)
    requires b > 0
    ensures (b * q) % b == 0
  {
    var x := b * q;
    var d, m := x / b, x % b;
    assert x == b * d + m && 0 <= m < b;
    var k := q - d;
    assert b * k == m by {
      assert b * q - b * d == b * (q - d);
    }
    assert k >= 1 ==> b * k == b * (k - 1) + b && b * (k - 1) >= 0;
    assert k <= -1 ==> b * k == b * (k + 1) - b && b * (k + 1) <= 0;
  }
}

=== FILE: lookup.dfy ===
/**
 * The array searches the core is built from: `findIndex`, `find` and
 * `filter`, with the facts about them that the read models and the
 * mutations rely on.
 */
module Lookup {
  import opened Js

  /** `s.findIndex(p)`: the first position whose element satisfies `p`, or -1. */
  function FirstIndex<T>(s: seq<T>, p: T -> bool): (i: int)
    ensures -1 <= i < |s|
    ensures i == -1 <==> forall k :: 0 <= k < |s| ==> !p(s[k])
    ensures 0 <= i ==> p(s[i]) && forall k :: 0 <= k < i ==> !p(s[k])
  {
    if s == [] then -1
    else if p(s[0]) then 0
    else
      var j := FirstIndex(s[1..], p);
      if j < 0 then -1 else j + 1
  }

  /** `s.find(p)`: the first element satisfying `p`, or `undefined`. */
  function Find<T>(s: seq<T>, p: T -> bool): (r: Option<T>)
    ensures r.None? <==> forall k :: 0 <= k < |s| ==> !p(s[k])
    ensures r.Some? ==> r.value in s && p(r.value)
    ensures r.Some? ==> 0 <= FirstIndex(s, p) && r.value == s[FirstIndex(s, p)]
  {
    var i := FirstIndex(s, p);
    if i < 0 then None else Some(s[i])
  }

  /** The loop behind `findIndex`, as the mutations run it. */
  method FindIndex<T>(s: seq<T>, p: T -> bool) returns (i: int)
    ensures i == FirstIndex(s, p)
  {
    i := 0;
    while i < |s| && !p(s[i])
      invariant 0 <= i <= |s|
      invariant forall k :: 0 <= k < i ==> !p(s[k])
    {
      i := i + 1;
    }
    if i == |s| {
      i := -1;
    }
  }

  /** `s.filter(p)`, built element by element from the front. */
  function Filter<T>(s: seq<T>, p: T -> bool): (r: seq<T>)
    ensures |r| <= |s|
    ensures forall x :: x in r ==> x in s && p(x)
  {
    if s == [] then []
    else Filter(s[..|s| - 1], p) + (if p(s[|s| - 1]) then [s[|s| - 1]] else [])
  }

  /** `a` is `b` with some elements left out, order kept. */
  predicate IsSubsequence<T(==)>(a: seq<T>, b: seq<T>)
    decreases |b|
  {
    if a == [] then true
    else if b == [] then false
    else if a[|a| - 1] == b[|b| - 1] then IsSubsequence(a[..|a| - 1], b[..|b| - 1])
    else IsSubsequence(a, b[..|b| - 1])
  }

  lemma {:induction false} SubsequenceOfSelf<T>(s: seq<T>)
    ensures IsSubsequence(s, s)
  {
    if s != [] {
      SubsequenceOfSelf(s[..|s| - 1]);
    }
  }

  lemma {:induction false} SubsequenceGrow<T>(a: seq<T>, b: seq<T>, x: T)
    requires IsSubsequence(a, b)
    ensures IsSubsequence(a, b + [x])
    decreases |b|, 1
  {
    assert (b + [x])[..|b|] == b;
    if a != [] && a[|a| - 1] == x {
      assert IsSubsequence(a[..|a| - 1], b) by {
        SubsequenceShrink(a, b);
      }
    }
  }

  lemma {:induction false} SubsequenceShrink<T>(a: seq<T>, b: seq<T>)
    requires a != [] && IsSubsequence(a, b)
    ensures IsSubsequence(a[..|a| - 1], b)
    decreases |b|, 0
  {
    if a[|a| - 1] == b[|b| - 1] {
      SubsequenceGrow(a[..|a| - 1], b[..|b| - 1], b[|b| - 1]);
      assert b[..|b| - 1] + [b[|b| - 1]] == b;
    } else {
      SubsequenceShrink(a, b[..|b| - 1]);
      SubsequenceGrow(a[..|a| - 1], b[..|b| - 1], b[|b| - 1]);
      assert b[..|b| - 1] + [b[|b| - 1]] == b;
    }
  }

  /** A filter keeps the order of what it keeps. */
  lemma {:induction false} FilterIsSubsequence<T>(s: seq<T>, p: T -> bool)
    ensures IsSubsequence(Filter(s, p), s)
  {
    if s != [] {
      var init, last := s[..|s| - 1], s[|s| - 1];
      FilterIsSubsequence(init, p);
      assert init + [last] == s;
      if p(last) {
        assert Filter(s, p)[..|Filter(s, p)| - 1] == Filter(init, p);
      } else {
        assert Filter(s, p) == Filter(init, p);
        SubsequenceGrow(Filter(init, p), init, last);
      }
    }
  }

  /** An element is kept exactly when it satisfies the predicate. */
  lemma {:induction false} FilterMember<T>(s: seq<T>, p: T -> bool, x: T)
    ensures x in Filter(s, p) <==> x in s && p(x)
  {
    if s != [] {
      var init, last := s[..|s| - 1], s[|s| - 1];
      FilterMember(init, p, x);
      assert s == init + [last];
    }
  }

  /** Filtering twice with the same predicate is filtering once. */
  lemma {:induction false} FilterIdempotent<T>(s: seq<T>, p: T -> bool)
    ensures Filter(Filter(s, p), p) == Filter(s, p)
  {
    if s != [] {
      var init, last := s[..|s| - 1], s[|s| - 1];
      var fi := Filter(init, p);
      FilterIdempotent(init, p);
      if p(last) {
        var f := fi + [last];
        assert Filter(s, p) == f;
        assert f[..|f| - 1] == fi;
        assert Filter(f, p) == Filter(fi, p) + [last];
      } else {
        assert Filter(s, p) == fi;
      }
    }
  }

  /** A predicate every element satisfies keeps the whole sequence. */
  lemma {:induction false} FilterAll<T>(s: seq<T>, p: T -> bool)
    requires forall k :: 0 <= k < |s| ==> p(s[k])
    ensures Filter(s, p) == s
  {
    if s != [] {
      var init := s[..|s| - 1];
      assert forall k :: 0 <= k < |init| ==> init[k] == s[k];
      FilterAll(init, p);
      assert s == init + [s[|s| - 1]];
    }
  }

  /** Filtering a concatenation filters each part. */
  lemma {:induction false} FilterAppend<T>(a: seq<T>, b: seq<T>, p: T -> bool)
    ensures Filter(a + b, p) == Filter(a, p) + Filter(b, p)
    decreases |b|
  {
    if b == [] {
      assert a + b == a;
    } else {
      var init := b[..|b| - 1];
      assert (a + b)[..|a + b| - 1] == a + init;
      FilterAppend(a, init, p);
    }
  }

  /** Filtering preserves multiplicities of what it keeps and drops the rest. */
  lemma {:induction false} FilterMultiset<T>(s: seq<T>, p: T -> bool)
    ensures multiset(Filter(s, p)) <= multiset(s)
  {
    if s != [] {
      var init := s[..|s| - 1];
      FilterMultiset(init, p);
      assert s == init + [s[|s| - 1]];
    }
  }

  /** Predicates that agree on every element keep the same elements. */
  lemma {:induction false} FilterAgree<T>(s: seq<T>, p: T -> bool, q: T -> bool)
    requires forall k :: 0 <= k < |s| ==> p(s[k]) == q(s[k])
    ensures Filter(s, p) == Filter(s, q)
  {
    if s != [] {
      FilterAgree(s[..|s| - 1], p, q);
    }
  }

  /** How many elements satisfy `p` (`s.filter(p).length`). */
  function Count<T>(s: seq<T>, p: T -> bool): (n: nat)
    ensures n <= |s|
  {
    |Filter(s, p)|
  }

  /** Replacing one element changes the count by that element's contribution only. */
  lemma {:induction false} CountUpdate<T>(s: seq<T>, i: nat, x: T, p: T -> bool)
    requires i < |s|
    ensures Count(s[i := x], p) + (if p(s[i]) then 1 else 0)
         == Count(s, p) + (if p(x) then 1 else 0)
  {
    var t := s[i := x];
    var n := |s| - 1;
    if i < n {
      assert t[..n] == s[..n][i := x];
      CountUpdate(s[..n], i, x, p);
    } else {
      assert t[..n] == s[..n];
    }
  }

  /** A predicate that is the disjoint union of two others counts what they count together. */
  lemma {:induction false} CountSplit<T>(s: seq<T>, p: T -> bool, q: T -> bool, r: T -> bool)
    requires forall k :: 0 <= k < |s| ==> (p(s[k]) <==> q(s[k]) || r(s[k]))
    requires forall k :: 0 <= k < |s| ==> !(q(s[k]) && r(s[k]))
    ensures Count(s, p) == Count(s, q) + Count(s, r)
  {
    if s != [] {
      CountSplit(s[..|s| - 1], p, q, r);
    }
  }

  /** A weaker predicate counts at least as many elements. */
  lemma {:induction false} CountMonotone<T>(s: seq<T>, p: T -> bool, q: T -> bool)
    requires forall x :: p(x) ==> q(x)
    ensures Count(s, p) <= Count(s, q)
  {
    if s != [] {
      CountMonotone(s[..|s| - 1], p, q);
    }
  }

  /** Two sequences that agree position by position on `p` have the same count. */
  lemma {:induction false} CountPointwise<T>(s: seq<T>, t: seq<T>, p: T -> bool)
    requires |s| == |t|
    requires forall k :: 0 <= k < |s| ==> p(s[k]) == p(t[k])
    ensures Count(s, p) == Count(t, p)
  {
    if s != [] {
      CountPointwise(s[..|s| - 1], t[..|t| - 1], p);
    }
  }

  /** `s.map(f)`: element `k` of the result is `f` of element `k`. */
  function MapSeq<A, B>(s: seq<A>, f: A -> B): (r: seq<B>)
    ensures |r| == |s|
    ensures forall k :: 0 <= k < |s| ==> r[k] == f(s[k])
  {
    seq(|s|, k requires 0 <= k < |s| => f(s[k]))
  }

  /** Mapping a concatenation maps each part. */
  lemma MapSeqAppend<A, B>(a: seq<A>, b: seq<A>, f: A -> B)
    ensures MapSeq(a + b, f) == MapSeq(a, f) + MapSeq(b, f)
  {
  }

  /** Mapping the kept elements of a prefix one longer adds the new element's image exactly when it is kept. */
  lemma MapFilterStep<A, B>(s: seq<A>, i: nat, p: A -> bool, f: A -> B)
    requires i < |s|
    ensures MapSeq(Filter(s[..i + 1], p), f)
         == MapSeq(Filter(s[..i], p), f) + (if p(s[i]) then [f(s[i])] else [])
  {
    assert s[..i + 1] == s[..i] + [s[i]];
    FilterAppend(s[..i], [s[i]], p);
    assert [s[i]][..0] == [];
    MapSeqAppend(Filter(s[..i], p), Filter([s[i]], p), f);
  }
}

=== FILE: mutations.dfy ===
/**
 * The two writes of the bed-management API, `updatePatient` and
 * `dischargePatient`, as functions from the old collections to the new
 * ones. `Store` runs them in place and is proved to agree with them; the
 * lemmas here say what they change and what they keep.
 */
module Mutations {
  import opened Js
  import opened Lookup
  import opened Domain
  import opened Stats

  /** The body of `update-paciente`; `nasc` is expected as `YYYYMMDD`. */
  datatype PatientUpdate = PatientUpdate(
    pacienteId: string,
    nome: string,
    cpf: string,
    sus: string,
    nasc: string,
    sexo: string,
    mae: string,
    telefone: string,
    endereco: string)

  /** The body of `alta`. */
  datatype Discharge = Discharge(
    admissaoId: string,
    leitoId: string,
    pacienteId: string,
    tipoAlta: string,
    dataEvento: string,
    detalhesTexto: string)

  /** `{ success }` together with the collections after the call. */
  datatype Outcome = Outcome(success: bool, db: Db)

  // ---------------------------------------------------------------------------
  // updatePatient
  // ---------------------------------------------------------------------------

  /**
   * A non-empty `nasc` is cut at 4 and 6 and 8 and rejoined with dashes;
   * an empty one keeps the stored birth date.
   */
  function ReformatBirthDate(nasc: string, previous: string): (r: string)
    ensures nasc == "" ==> r == previous
    ensures nasc != "" ==> |r| == 2 + (if |nasc| < 8 then |nasc| else 8)
    ensures nasc != "" ==>
      var n := |nasc|;
      r == nasc[..Clamp(4, n)] + "-" + nasc[Clamp(4, n)..Clamp(6, n)] + "-" + nasc[Clamp(6, n)..Clamp(8, n)]
    ensures |nasc| >= 8 ==>
      && |r| == 10 && r[4] == '-' && r[7] == '-'
      && r[..4] + r[5..7] + r[8..] == nasc[..8]
  {
    if nasc != "" then
      var r := Substring(nasc, 0, 4) + "-" + Substring(nasc, 4, 6) + "-" + Substring(nasc, 6, 8);
      assert |nasc| >= 8 ==> r[..4] == nasc[..4] && r[5..7] == nasc[4..6] && r[8..] == nasc[6..8];
      assert |nasc| >= 8 ==> nasc[..8] == nasc[..4] + nasc[4..6] + nasc[6..8];
      r
    else previous
  }

  /** The patient record after the overwrite: the spread keeps what the request does not name. */
  function EditedPatient(p: Patient, req: PatientUpdate): Patient
  {
    p.(name := req.nome, cpf := req.cpf, susCard := req.sus,
       birthDate := ReformatBirthDate(req.nasc, p.birthDate),
       sex := req.sexo, motherName := req.mae, phone := req.telefone,
       address := req.endereco, editedBy := Some("Admin"))
  }

  /**
   * The beds after the new name is copied into the bed of the patient's
   * first `internado` admission; nothing changes when there is no such
   * admission or its bed is not found.
   */
  function PropagateName(beds: seq<Bed>, admissions: seq<Admission>, patientId: string, name: string): (r: seq<Bed>)
    ensures |r| == |beds|
    ensures forall k :: 0 <= k < |beds| ==>
      r[k] == beds[k] || r[k] == beds[k].(currentPatientName := Some(name))
    ensures var a := Find(admissions, ActiveAdmissionOf(patientId));
      forall k :: 0 <= k < |beds| && r[k] != beds[k] ==>
        a.Some? && k == FirstIndex(beds, BedWithId(a.value.bedId))
  {
    var activeAdm := Find(admissions, ActiveAdmissionOf(patientId));
    if activeAdm.None? then beds
    else
      var bedIdx := FirstIndex(beds, BedWithId(activeAdm.value.bedId));
      if bedIdx < 0 then beds
      else beds[bedIdx := beds[bedIdx].(currentPatientName := Some(name))]
  }

  /** `updatePatient`: fails without effect on an unknown id, otherwise overwrites and propagates the name. */
  function UpdatePatient(db: Db, req: PatientUpdate): (r: Outcome)
    ensures r.success <==> exists k :: 0 <= k < |db.patients| && db.patients[k].id == req.pacienteId
    ensures !r.success ==> r.db == db
    ensures r.db.admissions == db.admissions
    ensures |r.db.patients| == |db.patients| && |r.db.beds| == |db.beds|
  {
    var idx := FirstIndex(db.patients, PatientWithId(req.pacienteId));
    if idx < 0 then Outcome(false, db)
    else
      var patients := db.patients[idx := EditedPatient(db.patients[idx], req)];
      var beds := PropagateName(db.beds, db.admissions, req.pacienteId, req.nome);
      Outcome(true, Db(patients, beds, db.admissions))
  }

  /**
   * On success exactly the first patient with the id is rewritten: the
   * request's fields are written, `editedBy` becomes "Admin", and the
   * identity, internal id, last discharge and age are kept.
   */
  lemma UpdatePatientFields(db: Db, req: PatientUpdate)
    ensures var r := UpdatePatient(db, req);
      var i := FirstIndex(db.patients, PatientWithId(req.pacienteId));
      r.success ==>
        && 0 <= i < |db.patients|
        && (forall k :: 0 <= k < |db.patients| && k != i ==> r.db.patients[k] == db.patients[k])
        && var p, q := db.patients[i], r.db.patients[i];
        && q.id == p.id == req.pacienteId && q.internalId == p.internalId
        && q.lastDischargeDate == p.lastDischargeDate && q.age == p.age
        && q.name == req.nome && q.cpf == req.cpf && q.susCard == req.sus
        && q.sex == req.sexo && q.motherName == req.mae
        && q.phone == req.telefone && q.address == req.endereco
        && q.editedBy == Some("Admin")
        && q.birthDate == ReformatBirthDate(req.nasc, p.birthDate)
  {
  }

  /**
   * Only the first bed with the id of the patient's first active admission
   * can take the new name, and only its displayed name changes; every other
   * bed is kept.
   */
  lemma UpdateRenamesOnlyActiveBed(db: Db, req: PatientUpdate, k: int)
    requires 0 <= k < |db.beds|
    ensures var r := UpdatePatient(db, req);
      var a := Find(db.admissions, ActiveAdmissionOf(req.pacienteId));
      r.db.beds[k] != db.beds[k] ==>
        && r.success
        && r.db.beds[k] == db.beds[k].(currentPatientName := Some(req.nome))
        && a.Some? && a.value in db.admissions && a.value.patientId == req.pacienteId
        && a.value.status == Internado && a.value.bedId == db.beds[k].id
        && k == FirstIndex(db.beds, BedWithId(a.value.bedId))
  {
    var activeAdm := Find(db.admissions, ActiveAdmissionOf(req.pacienteId));
    if activeAdm.Some? {
      assert ActiveAdmissionOf(req.pacienteId)(activeAdm.value);
    }
  }

  /**
   * When the patient is found and has an active admission whose bed
   * exists, that bed now shows the new name.
   */
  lemma UpdatePropagatesName(db: Db, req: PatientUpdate)
    ensures var r := UpdatePatient(db, req);
      var activeAdm := Find(db.admissions, ActiveAdmissionOf(req.pacienteId));
      var j := FirstIndex(db.beds, BedWithId(if activeAdm.Some? then activeAdm.value.bedId else ""));
      r.success && activeAdm.Some? && 0 <= j ==>
        && r.db.beds[j].id == activeAdm.value.bedId
        && r.db.beds[j].currentPatientName == Some(req.nome)
  {
  }

  /** Renaming never changes a bed's type or status, so the chart counts stay as they were. */
  lemma UpdateKeepsCounts(db: Db, req: PatientUpdate)
    ensures var r := UpdatePatient(db, req);
      && GraficosOf(r.db.beds) == GraficosOf(db.beds)
      && OccupiedCount(r.db.beds) == OccupiedCount(db.beds)
  {
    var r := UpdatePatient(db, req);
    var s, t := db.beds, r.db.beds;
    assert forall k :: 0 <= k < |s| ==> t[k].bedType == s[k].bedType && t[k].status == s[k].status;
    SameShapeSameCharts(t, s);
  }

  // ---------------------------------------------------------------------------
  // dischargePatient
  // ---------------------------------------------------------------------------

  /** The admission after discharge: always `alta`, whatever the requested type. */
  function ClosedAdmission(a: Admission, req: Discharge, stamp: string): Admission
  {
    a.(status := Alta, dischargeDate := Some(stamp),
       dischargeDestination := Some(req.tipoAlta), dischargeNotes := Some(req.detalhesTexto))
  }

  /** The bed after discharge: free, with no admission and no patient name. */
  function FreedBed(b: Bed): Bed
  {
    b.(status := Livre, currentAdmissionId := None, currentPatientName := None)
  }

  /**
   * `dischargePatient`: the admission, the bed and the patient are each
   * looked up on their own id and each updated only if found. The two
   * instants are the two `new Date().toISOString()` readings. The call
   * reports success whatever was found.
   */
  function DischargePatient(db: Db, req: Discharge, admissionStamp: string, patientStamp: string): (r: Outcome)
    ensures r.success
    ensures |r.db.patients| == |db.patients| && |r.db.beds| == |db.beds|
    ensures |r.db.admissions| == |db.admissions|
  {
    var admIdx := FirstIndex(db.admissions, AdmissionWithId(req.admissaoId));
    var bedIdx := FirstIndex(db.beds, BedWithId(req.leitoId));
    var patIdx := FirstIndex(db.patients, PatientWithId(req.pacienteId));
    var admissions :=
      if admIdx < 0 then db.admissions
      else db.admissions[admIdx := ClosedAdmission(db.admissions[admIdx], req, admissionStamp)];
    var beds := if bedIdx < 0 then db.beds else db.beds[bedIdx := FreedBed(db.beds[bedIdx])];
    var patients :=
      if patIdx < 0 then db.patients
      else db.patients[patIdx := db.patients[patIdx].(lastDischargeDate := Some(patientStamp))];
    Outcome(true, Db(patients, beds, admissions))
  }

  /**
   * Each of the three updates happens exactly when its id resolves, touches
   * only the first match, and leaves the other records of its collection
   * alone.
   */
  lemma DischargeEffects(db: Db, req: Discharge, admissionStamp: string, patientStamp: string)
    ensures var r := DischargePatient(db, req, admissionStamp, patientStamp).db;
      var ai := FirstIndex(db.admissions, AdmissionWithId(req.admissaoId));
      var bi := FirstIndex(db.beds, BedWithId(req.leitoId));
      var pi := FirstIndex(db.patients, PatientWithId(req.pacienteId));
      && (ai < 0 ==> r.admissions == db.admissions)
      && (0 <= ai ==>
            && (forall k :: 0 <= k < |db.admissions| && k != ai ==> r.admissions[k] == db.admissions[k])
            && db.admissions[ai].id == req.admissaoId
            && r.admissions[ai]
               == db.admissions[ai].(status := Alta, dischargeDate := Some(admissionStamp),
                                     dischargeDestination := Some(req.tipoAlta),
                                     dischargeNotes := Some(req.detalhesTexto)))
      && (bi < 0 ==> r.beds == db.beds)
      && (0 <= bi ==>
            && (forall k :: 0 <= k < |db.beds| && k != bi ==> r.beds[k] == db.beds[k])
            && db.beds[bi].id == req.leitoId
            && r.beds[bi]
               == db.beds[bi].(status := Livre, currentAdmissionId := None, currentPatientName := None))
      && (pi < 0 ==> r.patients == db.patients)
      && (0 <= pi ==>
            && (forall k :: 0 <= k < |db.patients| && k != pi ==> r.patients[k] == db.patients[k])
            && db.patients[pi].id == req.pacienteId
            && r.patients[pi] == db.patients[pi].(lastDischargeDate := Some(patientStamp)))
  {
  }

  /** The event date typed in the form has no effect on the outcome. */
  lemma DischargeIgnoresEventDate(db: Db, req: Discharge, eventDate: string, s1: string, s2: string)
    ensures DischargePatient(db, req, s1, s2)
         == DischargePatient(db, req.(dataEvento := eventDate), s1, s2)
  {
  }

  /** The requested discharge type never reaches the status: any found admission ends as `alta`. */
  lemma DischargeStatusIsAlta(db: Db, req: Discharge, s1: string, s2: string, k: int)
    requires 0 <= k < |db.admissions|
    ensures var r := DischargePatient(db, req, s1, s2).db;
      r.admissions[k] != db.admissions[k] ==> r.admissions[k].status == Alta
  {
  }

  /** Discharge is irreversible: no admission becomes `internado`, and the active count never grows. */
  lemma DischargeNeverReadmits(db: Db, req: Discharge, s1: string, s2: string)
    ensures var r := DischargePatient(db, req, s1, s2).db;
      && (forall k :: (0 <= k < |db.admissions| && r.admissions[k].status == Internado)
                      ==> db.admissions[k] == r.admissions[k])
      && Count(r.admissions, IsActive) <= Count(db.admissions, IsActive)
  {
    var r := DischargePatient(db, req, s1, s2).db;
    var ai := FirstIndex(db.admissions, AdmissionWithId(req.admissaoId));
    if 0 <= ai {
      CountUpdate(db.admissions, ai, r.admissions[ai], IsActive);
      assert r.admissions == db.admissions[ai := r.admissions[ai]];
    }
  }
  /** A discharge keeps the admissions of today: they are counted whatever their status. */
  lemma DischargeKeepsAdmissionsToday(db: Db, req: Discharge, s1: string, s2: string, clock: Clock, now: int)
    ensures AdmissionsToday(DischargePatient(db, req, s1, s2).db.admissions, clock, now)
         == AdmissionsToday(db.admissions, clock, now)
  {
    var r := DischargePatient(db, req, s1, s2).db;
    var ai := FirstIndex(db.admissions, AdmissionWithId(req.admissaoId));
    if 0 <= ai {
      CountUpdate(db.admissions, ai, r.admissions[ai], EnteredOn(clock, clock(now)));
      assert r.admissions == db.admissions[ai := r.admissions[ai]];
    }
  }


  /**
   * Freeing an occupied bed takes it out of the occupied count, out of its
   * category's occupied count and out of the table, and leaves every
   * category total as it was. A bed that was not occupied changes no count.
   */
  lemma DischargeFreesBed(db: Db, req: Discharge, s1: string, s2: string, now: int, clock: Clock)
    ensures var r := DischargePatient(db, req, s1, s2).db;
      var bi := FirstIndex(db.beds, BedWithId(req.leitoId));
      && (forall c :: CategoryTotal(r.beds, c) == CategoryTotal(db.beds, c))
      && (0 <= bi && db.beds[bi].status == Ocupado ==>
            && OccupiedCount(r.beds) + 1 == OccupiedCount(db.beds)
            && CategoryOccupied(r.beds, Classify(db.beds[bi].bedType)) + 1
               == CategoryOccupied(db.beds, Classify(db.beds[bi].bedType))
            && |Rows(r.beds, r.admissions, now, clock)| + 1 == |Rows(db.beds, db.admissions, now, clock)|)
      && (!(0 <= bi && db.beds[bi].status == Ocupado) ==>
            && OccupiedCount(r.beds) == OccupiedCount(db.beds)
            && forall c :: CategoryOccupied(r.beds, c) == CategoryOccupied(db.beds, c))
  {
    var r := DischargePatient(db, req, s1, s2).db;
    var bi := FirstIndex(db.beds, BedWithId(req.leitoId));
    if 0 <= bi {
      var freed := FreedBed(db.beds[bi]);
      assert r.beds == db.beds[bi := freed];
      CountUpdate(db.beds, bi, freed, IsOccupied);
      forall c: Category
        ensures CategoryTotal(r.beds, c) == CategoryTotal(db.beds, c)
        ensures CategoryOccupied(r.beds, c) + (if OccupiedIn(c)(db.beds[bi]) then 1 else 0)
             == CategoryOccupied(db.beds, c)
      {
        CountUpdate(db.beds, bi, freed, InCategory(c));
        CountUpdate(db.beds, bi, freed, OccupiedIn(c));
      }
    }
  }

  // ---------------------------------------------------------------------------
  // Bed and admission agreement
  // ---------------------------------------------------------------------------

  /** A bed is occupied exactly when it holds an admission reference. */
  predicate BedsConsistent(beds: seq<Bed>)
  {
    forall k :: 0 <= k < |beds| ==> (beds[k].status == Ocupado <==> beds[k].currentAdmissionId.Some?)
  }

  /** Updating a patient keeps every bed's status and reference, so it keeps the agreement. */
  lemma UpdateKeepsConsistency(db: Db, req: PatientUpdate)
    requires BedsConsistent(db.beds)
    ensures BedsConsistent(UpdatePatient(db, req).db.beds)
  {
  }

  /** Freeing a bed clears its reference along with its status, so discharge keeps the agreement. */
  lemma DischargeKeepsConsistency(db: Db, req: Discharge, s1: string, s2: string)
    requires BedsConsistent(db.beds)
    ensures BedsConsistent(DischargePatient(db, req, s1, s2).db.beds)
  {
  }
}

=== FILE: seed.dfy ===
/**
 * The three seed collections the store starts from, and what the read
 * models and the mutations give on them. `loadTime` is the instant the
 * module was loaded: every seed admission was created then, and their
 * entry instants are two days, five days and four hours earlier.
 */
module Seed {
  import opened Js
  import opened Lookup
  import opened Domain
  import opened TimeText
  import opened Stats
  import opened Mutations

  const DayMs: int := 86400000

  function SeedPatients(): seq<Patient>
  {
    [ Patient("p1", "00129384", "Maria Silva Oliveira", "123.456.789-00", "700000000000001",
              "1980-05-15", "Ana Silva", "Feminino", "(98) 99999-9999",
              "Rua das Flores, 123, Centro", Some("2023-10-10"), None, Some("Admin")),
      Patient("p2", "00129385", "João Santos Souza", "222.333.444-55", "700000000000002",
              "1965-08-20", "Maria Santos", "Masculino", "(98) 98888-8888",
              "Av. Principal, 500, Cohab", None, None, Some("Admin")),
      Patient("p3", "00129386", "Francisca Ferreira", "333.444.555-66", "700000000000003",
              "1990-01-10", "Josefa Ferreira", "Feminino", "(98) 97777-7777",
              "Rua 10, Qd 20, Renascença", None, None, Some("Dr. Plantonista")) ]
  }

  function SeedBeds(): seq<Bed>
  {
    [ Bed("b1", "101", "Leito 101", TypeClinico, Internacao, Ocupado, Some("a1"), Some("Maria Silva Oliveira"), None),
      Bed("b2", "102", "Leito 102", TypeClinico, Internacao, Livre, None, None, None),
      Bed("b3", "103", "Leito 103", TypeClinico, Internacao, Manutencao, None, None, None),
      Bed("b4", "201", "Leito 201", TypeIsolamento, Internacao, Ocupado, Some("a2"), Some("João Santos Souza"), None),
      Bed("b5", "202", "Leito 202", TypeIsolamento, Internacao, Livre, None, None, None),
      Bed("b6", "OBS-01", "Leito OBS-01", TypeObservacao, Emergencia, Ocupado, Some("a3"), Some("Francisca Ferreira"), None),
      Bed("b7", "OBS-02", "Leito OBS-02", TypeObservacao, Emergencia, Livre, None, None, None),
      Bed("b8", "EST-01", "Leito EST-01", TypeEstabilizacao, Emergencia, Livre, None, None, None) ]
  }

  function SeedAdmissions(loadTime: int): seq<Admission>
  {
    [ Admission("a1", "p1", "b1", loadTime - DayMs * 2, loadTime, "UPA", Amarelo, Nenhum,
                "Pneumonia adquirida na comunidade", Internado, None, None, None, "Admin"),
      Admission("a2", "p2", "b4", loadTime - DayMs * 5, loadTime, "Transferência", Vermelho, Aerossol,
                "Tuberculose Pulmonar", Internado, None, None, None, "Admin"),
      Admission("a3", "p3", "b6", loadTime - HourMs * 4, loadTime, "Demanda Espontânea", Verde, Nenhum,
                "Cefaleia intensa a esclarecer", Internado, None, None, None, "Dr. Plantonista") ]
  }

  function SeedDb(loadTime: int): Db
  {
    Db(SeedPatients(), SeedBeds(), SeedAdmissions(loadTime))
  }

  // ---------------------------------------------------------------------------
  // The read models on the seed
  // ---------------------------------------------------------------------------

  /** 1 for an element that is counted, 0 for one that is not. */
  function Flag(b: bool): nat
  {
    if b then 1 else 0
  }

  /** A count over eight elements, element by element. */
  lemma CountEight<T>(s: seq<T>, p: T -> bool)
    requires |s| == 8
    ensures Count(s, p)
      == Flag(p(s[0])) + Flag(p(s[1])) + Flag(p(s[2])) + Flag(p(s[3]))
       + Flag(p(s[4])) + Flag(p(s[5])) + Flag(p(s[6])) + Flag(p(s[7]))
  {
    var front, back := s[..4], s[4..];
    assert s == front + back;
    FilterAppend(front, back, p);
    CountFour(front, p);
    CountFour(back, p);
  }

  /** A count over four elements, element by element. */
  lemma CountFour<T>(s: seq<T>, p: T -> bool)
    requires |s| == 4
    ensures Count(s, p) == Flag(p(s[0])) + Flag(p(s[1])) + Flag(p(s[2])) + Flag(p(s[3]))
  {
    assert Count(s[..0], p) == 0;
    CountTo(s, p, 0);
    CountTo(s, p, 1);
    CountTo(s, p, 2);
    CountTo(s, p, 3);
    assert s[..4] == s;
  }

  /** The count of a prefix one longer: the shorter prefix's count plus the new element's flag. */
  lemma CountTo<T>(s: seq<T>, p: T -> bool, k: nat)
    requires k < |s|
    ensures Count(s[..k + 1], p) == Count(s[..k], p) + Flag(p(s[k]))
  {
    assert s[..k + 1][..k] == s[..k];
  }

  /** The category and the status of each of eight beds, in the seed's order. */
  predicate SeedLayout(s: seq<Bed>)
  {
    && |s| == 8
    && Classify(s[0].bedType) == Clinico && s[0].status == Ocupado
    && Classify(s[1].bedType) == Clinico && s[1].status == Livre
    && Classify(s[2].bedType) == Clinico && s[2].status == Manutencao
    && Classify(s[3].bedType) == Isolamento && s[3].status == Ocupado
    && Classify(s[4].bedType) == Isolamento && s[4].status == Livre
    && Classify(s[5].bedType) == Observacao && s[5].status == Ocupado
    && Classify(s[6].bedType) == Observacao && s[6].status == Livre
    && Classify(s[7].bedType) == Estabilizacao && s[7].status == Livre
  }

  /** The seed beds are laid out as above: each declared type lands in its own category. */
  lemma SeedClassification(s: seq<Bed>)
    requires s == SeedBeds()
    ensures SeedLayout(s)
  {
    assert s[0].bedType == s[1].bedType == s[2].bedType == TypeClinico;
    assert s[3].bedType == s[4].bedType == TypeIsolamento;
    assert s[5].bedType == s[6].bedType == TypeObservacao;
    assert s[7].bedType == TypeEstabilizacao;
    DeclaredTypesClassify();
  }

  /** The seed chart: Clínico 3 beds with 1 occupied, Isolamento 2/1, Observação 2/1, Estabilização 1/0. */
  lemma SeedCharts(s: seq<Bed>)
    requires s == SeedBeds()
    ensures GraficosOf(s) == SeedChart()
    ensures SeedChart() == map[
      Clinico := CatStats(3, 1, "#1e88e5"), Isolamento := CatStats(2, 1, "#8e24aa"),
      Observacao := CatStats(2, 1, "#fb8c00"), Estabilizacao := CatStats(1, 0, "#c62828")]
    ensures OccupiedCount(s) == 3
  {
    SeedClassification(s);
    LayoutCharts(s);
  }

  lemma LayoutCharts(s: seq<Bed>)
    requires SeedLayout(s)
    ensures GraficosOf(s) == SeedChart()
    ensures OccupiedCount(s) == 3
  {
    LayoutChartEntries(s);
    ChartByEntries(GraficosOf(s));
    LayoutOccupied(s);
  }

  /** The chart the seed beds give. */
  function SeedChart(): map<Category, CatStats>
  {
    map[Clinico := CatStats(3, 1, "#1e88e5"), Isolamento := CatStats(2, 1, "#8e24aa"),
        Observacao := CatStats(2, 1, "#fb8c00"), Estabilizacao := CatStats(1, 0, "#c62828")]
  }

  /** A chart over all four categories with the seed chart's four entries is the seed chart. */
  lemma ChartByEntries(g: map<Category, CatStats>)
    requires forall c :: c in g
    requires g[Clinico] == CatStats(3, 1, "#1e88e5") && g[Isolamento] == CatStats(2, 1, "#8e24aa")
    requires g[Observacao] == CatStats(2, 1, "#fb8c00") && g[Estabilizacao] == CatStats(1, 0, "#c62828")
    ensures g == SeedChart()
  {
    var m := SeedChart();
    forall c: Category
      ensures c in g && c in m && g[c] == m[c]
    {
      match c
      case Clinico =>
      case Isolamento =>
      case Observacao =>
      case Estabilizacao =>
    }
    SameCharts(g, m);
  }

  lemma LayoutChartEntries(s: seq<Bed>)
    requires SeedLayout(s)
    ensures var g := GraficosOf(s);
      && Clinico in g && g[Clinico] == CatStats(3, 1, "#1e88e5")
      && Isolamento in g && g[Isolamento] == CatStats(2, 1, "#8e24aa")
      && Observacao in g && g[Observacao] == CatStats(2, 1, "#fb8c00")
      && Estabilizacao in g && g[Estabilizacao] == CatStats(1, 0, "#c62828")
  {
    var g := GraficosOf(s);
    LayoutTotals(s);
    LayoutOccupied(s);
    GraficosEntry(s, Clinico);
    GraficosEntry(s, Isolamento);
    GraficosEntry(s, Observacao);
    GraficosEntry(s, Estabilizacao);
  }

  lemma LayoutTotals(s: seq<Bed>)
    requires SeedLayout(s)
    ensures CategoryTotal(s, Clinico) == 3 && CategoryTotal(s, Isolamento) == 2
    ensures CategoryTotal(s, Observacao) == 2 && CategoryTotal(s, Estabilizacao) == 1
  {
    CountEight(s, InCategory(Clinico));
    CountEight(s, InCategory(Isolamento));
    CountEight(s, InCategory(Observacao));
    CountEight(s, InCategory(Estabilizacao));
  }

  lemma LayoutOccupied(s: seq<Bed>)
    requires SeedLayout(s)
    ensures CategoryOccupied(s, Clinico) == 1 && CategoryOccupied(s, Isolamento) == 1
    ensures CategoryOccupied(s, Observacao) == 1 && CategoryOccupied(s, Estabilizacao) == 0
    ensures OccupiedCount(s) == 3
  {
    CountEight(s, OccupiedIn(Clinico));
    CountEight(s, OccupiedIn(Isolamento));
    CountEight(s, OccupiedIn(Observacao));
    CountEight(s, OccupiedIn(Estabilizacao));
    CountEight(s, IsOccupied);
  }

  /** Three of eight beds occupied: the dashboard shows 38%. */
  lemma SeedOccupancyRate(s: seq<Bed>)
    requires s == SeedBeds()
    ensures OccupancyRate(OccupiedCount(s), |s|) == 38
  {
    var o, t := OccupiedCount(s), |s|;
    assert o == 3 && t == 8 by {
      SeedClassification(s);
      LayoutOccupied(s);
    }
    assert OccupancyRate(o, t) == 38;
  }

  /** Every seed bed is occupied exactly when it references an admission. */
  lemma SeedConsistent()
    ensures BedsConsistent(SeedBeds())
  {
  }
}

=== FILE: stats.dfy ===
/**
 * The read models of the bed-management API: the bed map (per-category
 * counts and one table row per occupied bed), the dashboard summary
 * (occupancy rate, today's admissions, the four most recent active
 * admissions) and the admission-details lookup.
 *
 * The loops that build the bed map and the dashboard live in `Store`; this
 * module gives the values they compute and what is proved about them.
 */
module Stats {
  import opened Js
  import opened Lookup
  import opened Domain
  import opened TimeText

  // ---------------------------------------------------------------------------
  // Categories
  // ---------------------------------------------------------------------------

  datatype Category = Clinico | Isolamento | Observacao | Estabilizacao
  {
    function Slug(): string
    {
      match this
      case Clinico => "clinico"
      case Isolamento => "isolamento"
      case Observacao => "observacao"
      case Estabilizacao => "estabilizacao"
    }

    /** The fixed display colour of the category. */
    function Color(): string
    {
      match this
      case Clinico => "#1e88e5"
      case Isolamento => "#8e24aa"
      case Observacao => "#fb8c00"
      case Estabilizacao => "#c62828"
    }
  }

  /** The categories in the order `graficos` lists them. */
  const AllCategories: seq<Category> := [Clinico, Isolamento, Observacao, Estabilizacao]

  /**
   * The category of a free-text bed type: "Isolamento" wins over
   * "Observação", which wins over "Estabilização"; anything else is clinical.
   */
  function Classify(bedType: string): Category
  {
    if Contains(bedType, "Isolamento") then Isolamento
    else if Contains(bedType, "Observação") then Observacao
    else if Contains(bedType, "Estabilização") then Estabilizacao
    else Clinico
  }

  /** Each category is reached by exactly the bed types the precedence gives it. */
  lemma ClassifyPrecedence(bedType: string)
    ensures var c := Classify(bedType);
      && (c == Isolamento <==> Contains(bedType, "Isolamento"))
      && (c == Observacao <==>
            !Contains(bedType, "Isolamento") && Contains(bedType, "Observação"))
      && (c == Estabilizacao <==>
            !Contains(bedType, "Isolamento") && !Contains(bedType, "Observação")
            && Contains(bedType, "Estabilização"))
      && (c == Clinico <==>
            !Contains(bedType, "Isolamento") && !Contains(bedType, "Observação")
            && !Contains(bedType, "Estabilização"))
  {
  }

  /** Each of the four declared bed types lands in its own category. */
  lemma DeclaredTypesClassify()
    ensures Classify(TypeClinico) == Clinico
    ensures Classify(TypeIsolamento) == Isolamento
    ensures Classify(TypeObservacao) == Observacao
    ensures Classify(TypeEstabilizacao) == Estabilizacao
  {
    ClassifyClinico();
    ClassifyIsolamento();
    ClassifyObservacao();
    ClassifyEstabilizacao();
  }

  lemma ClassifyClinico()
    ensures Classify(TypeClinico) == Clinico
  {
    assert |TypeClinico| < |"Isolamento"|;
    assert |TypeClinico| < |"Observação"|;
    assert |TypeClinico| < |"Estabilização"|;
  }

  lemma ClassifyIsolamento()
    ensures Classify(TypeIsolamento) == Isolamento
  {
    ContainsPrefix("Isolamento", " (TB)");
    assert TypeIsolamento == "Isolamento" + " (TB)";
  }

  lemma ClassifyObservacao()
    ensures Classify(TypeObservacao) == Observacao
  {
    var s := TypeObservacao;
    assert |s| == 10 && s[0] == 'O';
    NotContained(s, "Isolamento");
    ContainsPrefix("Observação", "");
    assert s == "Observação" + "";
  }

  lemma ClassifyEstabilizacao()
    ensures Classify(TypeEstabilizacao) == Estabilizacao
  {
    var s := TypeEstabilizacao;
    assert |s| == 13 && s[0] == 'E' && s[1] == 's' && s[2] == 't' && s[3] == 'a';
    forall i | 0 <= i <= 3
      ensures s[i] != 'I' && s[i] != 'O'
    {
      assert i == 0 || i == 1 || i == 2 || i == 3;
    }
    NotContained(s, "Isolamento");
    NotContained(s, "Observação");
    ContainsPrefix("Estabilização", "");
    assert s == "Estabilização" + "";
  }

  /** `t` does not occur in `s` when no position of `s` starts with `t[0]` and leaves room for `t`. */
  lemma NotContained(s: string, t: string)
    requires |t| > 0
    requires forall i :: 0 <= i <= |s| - |t| ==> s[i] != t[0]
    ensures !Contains(s, t)
  {
    ContainsIff(s, t);
    forall i | 0 <= i && i + |t| <= |s|
      ensures !OccursAt(s, t, i)
    {
      assert s[i..i + |t|][0] == s[i];
    }
  }

  function InCategory(c: Category): Bed -> bool
  {
    (b: Bed) => Classify(b.bedType) == c
  }

  function OccupiedIn(c: Category): Bed -> bool
  {
    (b: Bed) => Classify(b.bedType) == c && b.status == Ocupado
  }

  /** Beds of the category, whatever their status. */
  function CategoryTotal(beds: seq<Bed>, c: Category): nat
  {
    Count(beds, InCategory(c))
  }

  /** Occupied beds of the category; never more than the category holds. */
  function CategoryOccupied(beds: seq<Bed>, c: Category): (n: nat)
    ensures n <= CategoryTotal(beds, c)
  {
    CountMonotone(beds, OccupiedIn(c), InCategory(c));
    Count(beds, OccupiedIn(c))
  }

  function OccupiedCount(beds: seq<Bed>): nat
  {
    Count(beds, IsOccupied)
  }

  /** Every bed is counted in exactly one category, occupied or not. */
  lemma CategoriesPartition(beds: seq<Bed>)
    ensures CategoryTotal(beds, Clinico) + CategoryTotal(beds, Isolamento)
          + CategoryTotal(beds, Observacao) + CategoryTotal(beds, Estabilizacao) == |beds|
    ensures CategoryOccupied(beds, Clinico) + CategoryOccupied(beds, Isolamento)
          + CategoryOccupied(beds, Observacao) + CategoryOccupied(beds, Estabilizacao)
         == OccupiedCount(beds)
  {
    TotalsPartition(beds);
    OccupiedPartition(beds);
  }

  lemma {:induction false} TotalsPartition(beds: seq<Bed>)
    ensures CategoryTotal(beds, Clinico) + CategoryTotal(beds, Isolamento)
          + CategoryTotal(beds, Observacao) + CategoryTotal(beds, Estabilizacao) == |beds|
  {
    if beds != [] {
      TotalsPartition(beds[..|beds| - 1]);
    }
  }

  lemma {:induction false} OccupiedPartition(beds: seq<Bed>)
    ensures CategoryOccupied(beds, Clinico) + CategoryOccupied(beds, Isolamento)
          + CategoryOccupied(beds, Observacao) + CategoryOccupied(beds, Estabilizacao)
         == OccupiedCount(beds)
  {
    if beds != [] {
      OccupiedPartition(beds[..|beds| - 1]);
    }
  }

  datatype CatStats = CatStats(total: nat, occupied: nat, cor: string)

  /** The `graficos` record: one entry per category. */
  function GraficosOf(beds: seq<Bed>): (g: map<Category, CatStats>)
    ensures forall c :: c in g
    ensures forall c :: g[c].occupied <= g[c].total
  {
    AllCategoriesComplete();
    map c | c in AllCategories :: CatStats(CategoryTotal(beds, c), CategoryOccupied(beds, c), c.Color())
  }

  lemma AllCategoriesComplete()
    ensures forall c: Category :: c in AllCategories
  {
    forall c: Category
      ensures c in AllCategories
    {
      var k := match c
        case Clinico => 0
        case Isolamento => 1
        case Observacao => 2
        case Estabilizacao => 3;
      assert AllCategories[k] == c;
    }
  }

  /** Before any bed is seen every category counts zero. */
  lemma GraficosOfNoBeds()
    ensures GraficosOf([]) == map[
      Clinico := CatStats(0, 0, "#1e88e5"), Isolamento := CatStats(0, 0, "#8e24aa"),
      Observacao := CatStats(0, 0, "#fb8c00"), Estabilizacao := CatStats(0, 0, "#c62828")]
  {
    AllCategoriesComplete();
  }

  /** The chart's entry for a category holds that category's two counts and its colour. */
  lemma GraficosEntry(beds: seq<Bed>, c: Category)
    ensures c in GraficosOf(beds)
    ensures GraficosOf(beds)[c] == CatStats(CategoryTotal(beds, c), CategoryOccupied(beds, c), c.Color())
  {
    AllCategoriesComplete();
  }

  /** The chart after one more bed, as the loop of `getMapStats` builds it. */
  function BumpCategory(g: map<Category, CatStats>, bed: Bed): map<Category, CatStats>
    requires forall c :: c in g
  {
    var c := Classify(bed.bedType);
    g[c := CatStats(g[c].total + 1, g[c].occupied + (if bed.status == Ocupado then 1 else 0), g[c].cor)]
  }

  /**
   * One more bed adds one to the total of its category and, when it is
   * occupied, one to that category's occupied count; the other categories
   * stay as they were.
   */
  lemma GraficosStep(beds: seq<Bed>, i: nat)
    requires i < |beds|
    ensures GraficosOf(beds[..i + 1]) == BumpCategory(GraficosOf(beds[..i]), beds[i])
  {
    assert beds[..i + 1] == beds[..i] + [beds[i]];
    GraficosAppend(beds[..i], beds[i]);
  }

  lemma GraficosAppend(pre: seq<Bed>, bed: Bed)
    ensures GraficosOf(pre + [bed]) == BumpCategory(GraficosOf(pre), bed)
  {
    var h, m := GraficosOf(pre + [bed]), BumpCategory(GraficosOf(pre), bed);
    forall d: Category
      ensures d in h && d in m && h[d] == m[d]
    {
      GraficosAppendAt(pre, bed, d);
    }
    SameCharts(h, m);
  }

  lemma GraficosAppendAt(pre: seq<Bed>, bed: Bed, d: Category)
    ensures var h, m := GraficosOf(pre + [bed]), BumpCategory(GraficosOf(pre), bed);
      d in h && d in m && h[d] == m[d]
  {
    GraficosEntry(pre, d);
    GraficosEntry(pre + [bed], d);
    CategoryAppend(pre, bed, d);
    BumpAt(GraficosOf(pre), bed, d);
  }

  /** The counts of one category over a bed list one bed longer. */
  lemma CategoryAppend(pre: seq<Bed>, bed: Bed, d: Category)
    ensures CategoryTotal(pre + [bed], d)
         == CategoryTotal(pre, d) + (if Classify(bed.bedType) == d then 1 else 0)
    ensures CategoryOccupied(pre + [bed], d)
         == CategoryOccupied(pre, d) + (if Classify(bed.bedType) == d && bed.status == Ocupado then 1 else 0)
  {
    var next := pre + [bed];
    assert next[..|pre|] == pre;
    CountStep(pre, next, InCategory(d));
    CountStep(pre, next, OccupiedIn(d));
  }

  /** One bed changes only its own category's entry. */
  lemma BumpAt(g: map<Category, CatStats>, bed: Bed, d: Category)
    requires forall c :: c in g
    ensures d in BumpCategory(g, bed)
    ensures Classify(bed.bedType) != d ==> BumpCategory(g, bed)[d] == g[d]
    ensures Classify(bed.bedType) == d ==>
      BumpCategory(g, bed)[d]
      == CatStats(g[d].total + 1, g[d].occupied + (if bed.status == Ocupado then 1 else 0), g[d].cor)
  {
  }

  /** Two bed lists that agree, position by position, on declared type and status chart the same. */
  lemma SameShapeSameCharts(s: seq<Bed>, t: seq<Bed>)
    requires |s| == |t|
    requires forall k :: 0 <= k < |s| ==> s[k].bedType == t[k].bedType && s[k].status == t[k].status
    ensures GraficosOf(s) == GraficosOf(t)
    ensures OccupiedCount(s) == OccupiedCount(t)
  {
    forall c: Category
      ensures GraficosOf(s)[c] == GraficosOf(t)[c]
    {
      CountPointwise(s, t, InCategory(c));
      CountPointwise(s, t, OccupiedIn(c));
      GraficosEntry(s, c);
      GraficosEntry(t, c);
    }
    SameCharts(GraficosOf(s), GraficosOf(t));
    CountPointwise(s, t, IsOccupied);
  }

  lemma SameCharts(h: map<Category, CatStats>, m: map<Category, CatStats>)
    requires forall d :: d in h && d in m && h[d] == m[d]
    ensures h == m
  {
  }

  /** Counting over a sequence extended by one element. */
  lemma CountStep<T>(pre: seq<T>, next: seq<T>, p: T -> bool)
    requires |next| == |pre| + 1 && next[..|pre|] == pre
    ensures Count(next, p) == Count(pre, p) + (if p(next[|pre|]) then 1 else 0)
  {
  }

  /** `total` summed over the given categories, in order. */
  function SumTotals(g: map<Category, CatStats>, cs: seq<Category>): nat
    requires forall c :: c in g
  {
    if cs == [] then 0 else SumTotals(g, cs[..|cs| - 1]) + g[cs[|cs| - 1]].total
  }

  /** `occupied` summed over the given categories, in order. */
  function SumOccupied(g: map<Category, CatStats>, cs: seq<Category>): nat
    requires forall c :: c in g
  {
    if cs == [] then 0 else SumOccupied(g, cs[..|cs| - 1]) + g[cs[|cs| - 1]].occupied
  }

  /** Both sums over the four categories, written out term by term. */
  lemma SumsOverAll(g: map<Category, CatStats>)
    requires forall c :: c in g
    ensures SumTotals(g, AllCategories)
         == g[Clinico].total + g[Isolamento].total + g[Observacao].total + g[Estabilizacao].total
    ensures SumOccupied(g, AllCategories)
         == g[Clinico].occupied + g[Isolamento].occupied + g[Observacao].occupied + g[Estabilizacao].occupied
  {
    var c3, c2, c1 := AllCategories[..3], AllCategories[..2], AllCategories[..1];
    assert c3[..2] == c2 && c2[..1] == c1 && c1[..0] == [];
    assert AllCategories[..4] == AllCategories;
    assert SumTotals(g, c1) == g[Clinico].total;
    assert SumTotals(g, c2) == SumTotals(g, c1) + g[Isolamento].total;
    assert SumTotals(g, c3) == SumTotals(g, c2) + g[Observacao].total;
    assert SumOccupied(g, c1) == g[Clinico].occupied;
    assert SumOccupied(g, c2) == SumOccupied(g, c1) + g[Isolamento].occupied;
    assert SumOccupied(g, c3) == SumOccupied(g, c2) + g[Observacao].occupied;
  }

  /** Summed over all categories, the chart counts every bed and every occupied bed once. */
  lemma GraficosSums(beds: seq<Bed>)
    ensures SumTotals(GraficosOf(beds), AllCategories) == |beds|
    ensures SumOccupied(GraficosOf(beds), AllCategories) == OccupiedCount(beds)
    ensures OccupiedCount(beds) <= |beds|
  {
    var g := GraficosOf(beds);
    CategoriesPartition(beds);
    SumsOverAll(g);
    AllCategoriesComplete();
    assert forall c :: g[c].total == CategoryTotal(beds, c) && g[c].occupied == CategoryOccupied(beds, c);
  }

  // ---------------------------------------------------------------------------
  // The bed-map table
  // ---------------------------------------------------------------------------

  datatype Row = Row(
    admissaoId: string,
    leito: string,
    tipo: string,
    tipoSlug: string,
    paciente: string,
    entrada: string,
    permanencia: string)

  /** `admissions.find(a => a.id === bed.currentAdmissionId)`. */
  function AdmissionOfBed(bed: Bed, admissions: seq<Admission>): (o: Option<Admission>)
    ensures o.Some? ==> o.value in admissions && Some(o.value.id) == bed.currentAdmissionId
    ensures o.None? <==> forall a :: a in admissions ==> Some(a.id) != bed.currentAdmissionId
    ensures o.Some? ==> var i := FirstIndex(admissions, AdmissionReferencedBy(bed.currentAdmissionId));
      && 0 <= i && o.value == admissions[i]
      && forall k :: 0 <= k < i ==> Some(admissions[k].id) != bed.currentAdmissionId
  {
    var o := Find(admissions, AdmissionReferencedBy(bed.currentAdmissionId));
    assert o.None? ==> forall a :: a in admissions ==> !AdmissionReferencedBy(bed.currentAdmissionId)(a);
    o
  }

  /** The table row of one occupied bed, given the admission its reference finds. */
  function RowOf(bed: Bed, adm: Option<Admission>, now: int, clock: Clock): (r: Row)
    ensures r.leito == "Leito " + bed.number
    ensures r.tipo == bed.bedType && r.tipoSlug == Classify(bed.bedType).Slug()
    ensures r.paciente != ""
    ensures bed.currentPatientName.Some? && bed.currentPatientName.value != ""
      ==> r.paciente == bed.currentPatientName.value
    ensures bed.currentPatientName.None? || bed.currentPatientName.value == ""
      ==> r.paciente == "Desconhecido"
    ensures adm.None? ==> r.admissaoId == "" && r.entrada == "-" && r.permanencia == "-"
    ensures adm.Some? ==> && r.admissaoId == adm.value.id
                          && r.entrada == EntryTextAt(clock, adm.value.entryDate)
                          && r.permanencia == Permanence(now - adm.value.entryDate)
  {
    Row(
      if adm.Some? then adm.value.id else "",
      "Leito " + bed.number,
      bed.bedType,
      Classify(bed.bedType).Slug(),
      OrElse(bed.currentPatientName, "Desconhecido"),
      if adm.Some? then EntryTextAt(clock, adm.value.entryDate) else "-",
      if adm.Some? then Permanence(now - adm.value.entryDate) else "-")
  }

  /** The row builder `getMapStats` applies to each occupied bed. */
  function RowFor(admissions: seq<Admission>, now: int, clock: Clock): Bed -> Row
  {
    bed => RowOf(bed, AdmissionOfBed(bed, admissions), now, clock)
  }

  /** `tabela`: one row per occupied bed, in bed order; no other bed adds a row. */
  function Rows(beds: seq<Bed>, admissions: seq<Admission>, now: int, clock: Clock): (rows: seq<Row>)
    ensures |rows| == OccupiedCount(beds)
  {
    MapSeq(Filter(beds, IsOccupied), RowFor(admissions, now, clock))
  }

  /** The table grows by one row exactly when the next bed is occupied. */
  lemma RowsStep(beds: seq<Bed>, i: nat, admissions: seq<Admission>, now: int, clock: Clock)
    requires i < |beds|
    ensures Rows(beds[..i + 1], admissions, now, clock)
         == Rows(beds[..i], admissions, now, clock)
            + (if beds[i].status == Ocupado then [RowFor(admissions, now, clock)(beds[i])] else [])
  {
    MapFilterStep(beds, i, IsOccupied, RowFor(admissions, now, clock));
  }

  /** The rows are exactly the occupied beds' rows, and they keep the beds' order. */
  lemma RowsAreOccupiedBeds(beds: seq<Bed>, admissions: seq<Admission>, now: int, clock: Clock)
    ensures var ob := Filter(beds, IsOccupied);
      && IsSubsequence(ob, beds)
      && (forall b :: b in ob <==> b in beds && b.status == Ocupado)
      && |Rows(beds, admissions, now, clock)| == |ob|
      && forall k :: 0 <= k < |ob| ==> Rows(beds, admissions, now, clock)[k] == RowOf(ob[k], AdmissionOfBed(ob[k], admissions), now, clock)
  {
    FilterIsSubsequence(beds, IsOccupied);
    forall b {
      FilterMember(beds, IsOccupied, b);
    }
  }

  datatype MapStats = MapStats(graficos: map<Category, CatStats>, tabela: seq<Row>)

  // ---------------------------------------------------------------------------
  // The dashboard summary
  // ---------------------------------------------------------------------------

  /** `Math.round(occupied / total * 100)`, half-up on exact rationals; 0 for no beds. */
  function OccupancyRate(occupied: nat, total: nat): nat
  {
    if total > 0 then (200 * occupied + total) / (2 * total) else 0
  }

  /**
   * The rate is 0 for no beds and otherwise 100 * occupied / total rounded
   * half-up: the exact value plus one half lies in `[r, r + 1)`. It never
   * exceeds 100 while occupied beds are among the beds counted.
   */
  lemma OccupancyRateRounding(occupied: nat, total: nat)
    ensures var r := OccupancyRate(occupied, total);
      && (total == 0 ==> r == 0)
      && (total > 0 ==> 2 * total * r <= 200 * occupied + total < 2 * total * (r + 1))
      && (occupied <= total ==> r <= 100)
  {
    if total > 0 {
      var r := OccupancyRate(occupied, total);
      RoundingBounds(200 * occupied + total, 2 * total, r);
      RateAtMostHundred(occupied, total, r);
    }
  }

  lemma RoundingBounds(a: nat, b: nat, q: nat)
    requires b > 0 && q == a / b
    ensures b * q <= a < b * (q + 1)
  {
  }

  lemma RateAtMostHundred(occupied: nat, total: nat, r: nat)
    requires 0 < total
    requires 2 * total * r <= 200 * occupied + total
    ensures occupied <= total ==> r <= 100
  {
    if occupied <= total {
      assert 2 * total * r < 2 * total * 101;
      MulCancel(2 * total, r, 101);
    }
  }

  /** A positive factor can be cancelled from a strict inequality. */
  lemma MulCancel(a: nat, x: nat, y: nat)
    requires a > 0 && a * x < a * y
    ensures x < y
  {
    if x >= y {
      MulAtLeast(a, y, x);
    }
  }

  lemma MulAtLeast(a: nat, b: nat, c: nat)
    requires b <= c
    ensures a * b <= a * c
  {
  }

  lemma OccupancyRateExamples()
    ensures OccupancyRate(0, 0) == 0
    ensures OccupancyRate(3, 8) == 38
    ensures OccupancyRate(1, 8) == 13
  {
  }

  /** Same local calendar day (what comparing `toDateString()` results checks). */
  predicate SameDay(a: LocalTime, b: LocalTime)
  {
    a.year == b.year && a.month == b.month && a.day == b.day
  }

  function EnteredOn(clock: Clock, today: LocalTime): Admission -> bool
  {
    (a: Admission) => SameDay(clock(a.entryDate), today)
  }

  /** `admissoes_hoje`: admissions, of any status, whose entry falls on today's local date. */
  function AdmissionsToday(admissions: seq<Admission>, clock: Clock, now: int): (n: nat)
    ensures n <= |admissions|
  {
    Count(admissions, EnteredOn(clock, clock(now)))
  }

  /** One more admission adds one to the count exactly when it entered on today's date. */
  lemma AdmissionsTodayStep(admissions: seq<Admission>, a: Admission, clock: Clock, now: int)
    ensures AdmissionsToday(admissions + [a], clock, now)
         == AdmissionsToday(admissions, clock, now) + (if SameDay(clock(a.entryDate), clock(now)) then 1 else 0)
  {
    assert (admissions + [a])[..|admissions|] == admissions;
  }

  // ---------------------------------------------------------------------------
  // The most recent active admissions
  // ---------------------------------------------------------------------------

  predicate SortedByEntryDesc(s: seq<Admission>)
  {
    forall i, j :: 0 <= i < j < |s| ==> s[j].entryDate <= s[i].entryDate
  }

  /** Insert before the first element that did not enter later (keeps ties in original order). */
  function InsertByEntry(x: Admission, s: seq<Admission>): (r: seq<Admission>)
    requires SortedByEntryDesc(s)
    ensures SortedByEntryDesc(r)
    ensures multiset(r) == multiset(s) + multiset{x}
    ensures |r| == |s| + 1
    ensures r[0] == x || (s != [] && r[0] == s[0])
  {
    if s == [] || x.entryDate >= s[0].entryDate then [x] + s
    else
      assert s == [s[0]] + s[1..];
      [s[0]] + InsertByEntry(x, s[1..])
  }

  /** The `sort` by descending entry instant (a stable sort, as JavaScript's is). */
  function SortByEntryDesc(s: seq<Admission>): (r: seq<Admission>)
    ensures SortedByEntryDesc(r)
    ensures multiset(r) == multiset(s)
    ensures |r| == |s|
  {
    if s == [] then []
    else
      assert s == [s[0]] + s[1..];
      InsertByEntry(s[0], SortByEntryDesc(s[1..]))
  }

  /** `.slice(0, 4)`: the first four elements, or all of them when there are fewer. */
  function Take4<T>(s: seq<T>): (r: seq<T>)
    ensures |r| == if |s| < 4 then |s| else 4
    ensures r == s[..|r|]
    ensures forall x :: x in r ==> x in s
  {
    if |s| <= 4 then s else s[..4]
  }

  /** Sorting neither adds nor drops an element. */
  lemma SortKeepsMembers(s: seq<Admission>)
    ensures forall a :: a in SortByEntryDesc(s) <==> a in s
  {
    var sorted := SortByEntryDesc(s);
    forall a
      ensures a in sorted <==> a in s
    {
      assert a in sorted <==> a in multiset(sorted);
      assert a in s <==> a in multiset(s);
    }
  }

  /** A prefix of a sorted sequence is sorted. */
  lemma SortedPrefix(s: seq<Admission>, n: nat)
    requires SortedByEntryDesc(s) && n <= |s|
    ensures SortedByEntryDesc(s[..n])
  {
  }

  /** The four most recently entered active admissions, newest first. */
  function RecentAdmissions(admissions: seq<Admission>): (r: seq<Admission>)
    ensures |r| == if Count(admissions, IsActive) < 4 then Count(admissions, IsActive) else 4
    ensures forall a :: a in r ==> a in admissions && a.status == Internado
    ensures SortedByEntryDesc(r)
    ensures multiset(r) <= multiset(Filter(admissions, IsActive))
  {
    var active := Filter(admissions, IsActive);
    var sorted := SortByEntryDesc(active);
    var n := |Take4(sorted)|;
    SortKeepsMembers(active);
    SortedPrefix(sorted, n);
    assert sorted == sorted[..n] + sorted[n..];
    Take4(sorted)
  }

  /** No active admission left out of the four entered later than one that was chosen. */
  lemma RecentAdmissionsAreMostRecent(admissions: seq<Admission>, a: Admission, k: int)
    requires a in admissions && a.status == Internado
    requires a !in RecentAdmissions(admissions)
    requires 0 <= k < |RecentAdmissions(admissions)|
    ensures a.entryDate <= RecentAdmissions(admissions)[k].entryDate
  {
    var active := Filter(admissions, IsActive);
    var sorted := SortByEntryDesc(active);
    var r := Take4(sorted);
    FilterMember(admissions, IsActive, a);
    SortKeepsMembers(active);
    var j :| 0 <= j < |sorted| && sorted[j] == a;
    assert j >= |r| by {
      assert forall i :: 0 <= i < |r| ==> r[i] == sorted[i] && r[i] != a;
    }
    assert r[k] == sorted[k];
  }

  datatype Recent = Recent(nome: string, leito: string, slug: string, hora: string)

  /** The bed label of a recent admission; never "Leito Leito …". */
  function RecentBedLabel(b: Option<Bed>): (r: string)
    ensures b.None? ==> r == "-"
    ensures b.Some? ==> Contains(r, "Leito")
    ensures b.Some? && Contains(b.value.number, "Leito") ==> r == b.value.number
    ensures b.Some? && !Contains(b.value.number, "Leito") ==> r == "Leito " + b.value.number
  {
    match b
    case None => "-"
    case Some(bed) =>
      if Contains(bed.number, "Leito") then bed.number
      else
        ContainsPrefix("Leito", " " + bed.number);
        assert "Leito" + (" " + bed.number) == "Leito " + bed.number;
        "Leito " + bed.number
  }

  function RecentOf(a: Admission, db: Db, clock: Clock): (r: Recent)
    ensures var b, p := Find(db.beds, BedWithId(a.bedId)), Find(db.patients, PatientWithId(a.patientId));
      && (p.Some? && p.value.name != "" ==> r.nome == p.value.name)
      && (p.None? || p.value.name == "" ==> r.nome == "Desconhecido")
      && r.leito == RecentBedLabel(b)
      && (b.Some? ==> r.slug == Classify(b.value.bedType).Slug())
      && (b.None? ==> r.slug == "clinico")
      && r.hora == HourTextAt(clock, a.entryDate)
  {
    var b := Find(db.beds, BedWithId(a.bedId));
    var p := Find(db.patients, PatientWithId(a.patientId));
    Recent(
      OrElse(if p.Some? then Some(p.value.name) else None, "Desconhecido"),
      RecentBedLabel(b),
      if b.Some? then Classify(b.value.bedType).Slug() else "clinico",
      HourTextAt(clock, a.entryDate))
  }

  /** `recentes`: the rows of the recent admissions, in the same order. */
  function Recentes(db: Db, clock: Clock): (r: seq<Recent>)
    ensures |r| <= 4
    ensures |r| == |RecentAdmissions(db.admissions)|
    ensures forall k :: 0 <= k < |r| ==> r[k] == RecentOf(RecentAdmissions(db.admissions)[k], db, clock)
  {
    var adms := RecentAdmissions(db.admissions);
    seq(|adms|, k requires 0 <= k < |adms| => RecentOf(adms[k], db, clock))
  }

  datatype DashboardStats = DashboardStats(
    leitos: map<Category, CatStats>,
    taxaOcupacao: nat,
    admissoesHoje: nat,
    recentes: seq<Recent>)

  // ---------------------------------------------------------------------------
  // Admission details
  // ---------------------------------------------------------------------------

  /** Entry and system instants are passed through; their locale formatting is not modelled. */
  datatype AdmissaoView = AdmissaoView(
    id: string,
    dataEntrada: int,
    dataSistema: int,
    diagnostico: string,
    risco: string,
    isolamento: string,
    origem: string,
    cadastradoPor: string)

  datatype LeitoView = LeitoView(id: string, nome: string, tipo: string)

  datatype PacienteView = PacienteView(
    id: string,
    idInterno: string,
    nome: string,
    cpf: string,
    sus: string,
    nasc: string,
    sexo: string,
    mae: string,
    telefone: string,
    endereco: string,
    editadoPor: string)

  datatype Details = NotFound | Found(admissao: AdmissaoView, leito: LeitoView, paciente: PacienteView)

  /** What the details screen shows of a patient record. */
  function PacienteViewOf(p: Patient): (v: PacienteView)
    ensures v.id == p.id && v.idInterno == p.internalId && v.nome == p.name && v.cpf == p.cpf
    ensures v.sus == p.susCard && v.nasc == p.birthDate && v.sexo == p.sex && v.mae == p.motherName
    ensures v.telefone == p.phone && v.endereco == p.address
    ensures p.editedBy.Some? && p.editedBy.value != "" ==> v.editadoPor == p.editedBy.value
    ensures p.editedBy.None? || p.editedBy.value == "" ==> v.editadoPor == "-"
  {
    PacienteView(p.id, p.internalId, p.name, p.cpf, p.susCard, p.birthDate, p.sex,
                 p.motherName, p.phone, p.address, OrElse(p.editedBy, "-"))
  }

  /**
   * The admission with the given id together with its patient and bed, or
   * not-found when any of the three is missing.
   */
  function AdmissionDetails(db: Db, admissionId: string): (r: Details)
    ensures var adm := Find(db.admissions, AdmissionWithId(admissionId));
      r.NotFound? <==>
        adm.None?
        || Find(db.patients, PatientWithId(adm.value.patientId)).None?
        || Find(db.beds, BedWithId(adm.value.bedId)).None?
    ensures r.Found? ==>
      && r.admissao.id == admissionId
      && r.admissao.diagnostico != "" && r.admissao.origem != ""
      && r.paciente.editadoPor != ""
      && |r.leito.nome| >= 6 && r.leito.nome[..6] == "Leito "
      && (exists a :: a in db.admissions && a.id == admissionId
            && r.paciente.id == a.patientId && r.leito.id == a.bedId)
      && (exists p :: p in db.patients && r.paciente == PacienteViewOf(p))
  {
    var adm := Find(db.admissions, AdmissionWithId(admissionId));
    if adm.None? then NotFound
    else
      var a := adm.value;
      var p := Find(db.patients, PatientWithId(a.patientId));
      var b := Find(db.beds, BedWithId(a.bedId));
      if p.None? || b.None? then NotFound
      else
        Found(
          AdmissaoView(a.id, a.entryDate, a.systemEntryDate,
                       Or(a.diagnosis, "Não informado"), Or(a.riskLevel.Name(), "-"),
                       Or(a.isolation.Name(), "Não"), Or(a.origin, "-"), a.createdBy),
          LeitoView(b.value.id, "Leito " + b.value.number, b.value.bedType),
          PacienteViewOf(p.value))
  }

  /**
   * Every field of the details, when found, comes from the admission with
   * the id, its patient and its bed, with the fallbacks for empty texts.
   */
  lemma AdmissionDetailsFields(db: Db, admissionId: string)
    ensures var r := AdmissionDetails(db, admissionId);
      var adm := Find(db.admissions, AdmissionWithId(admissionId));
      r.Found? ==>
        && adm.Some?
        && var a := adm.value;
        && var p, b := Find(db.patients, PatientWithId(a.patientId)), Find(db.beds, BedWithId(a.bedId));
        && p.Some? && b.Some?
        && r.admissao.id == a.id && r.admissao.dataEntrada == a.entryDate
        && r.admissao.dataSistema == a.systemEntryDate
        && (a.diagnosis != "" ==> r.admissao.diagnostico == a.diagnosis)
        && (a.diagnosis == "" ==> r.admissao.diagnostico == "Não informado")
        && r.admissao.risco == a.riskLevel.Name() && r.admissao.isolamento == a.isolation.Name()
        && (a.origin != "" ==> r.admissao.origem == a.origin)
        && (a.origin == "" ==> r.admissao.origem == "-")
        && r.admissao.cadastradoPor == a.createdBy
        && r.leito == LeitoView(b.value.id, "Leito " + b.value.number, b.value.bedType)
        && r.paciente == PacienteViewOf(p.value)
  {
  }
}

=== FILE: timetext.dfy ===
/**
 * The texts the bed map and the dashboard derive from clock readings: the
 * length of stay ("permanência"), the entry date and time, and the hour of
 * an admission.
 */
module TimeText {
  import opened Js
  import opened Domain

  const HourMs: int := 3600000
  const MinuteMs: int := 60000

  /** The two shapes of the "permanência" text. */
  datatype Stay = Days(days: int, hours: int) | Hours(hours: int, minutes: int)

  /**
   * Whole hours elapsed, then whole days; a stay of a day or more is shown
   * as days and hours, anything shorter as hours and minutes.
   */
  function StayOf(diffMs: int): Stay
  {
    var diffHrs := diffMs / 3600000;     // Math.floor(diffMs / 3600000)
    var diffDays := diffHrs / 24;        // Math.floor(diffHrs / 24)
    if diffDays > 0 then Days(diffDays, diffHrs % 24)
    else Hours(diffHrs, JsRem(diffMs, 3600000) / 60000)
  }

  /**
   * What the two shapes mean: a day or more elapsed gives whole days and the
   * remaining whole hours; less than a day gives whole hours and the
   * remaining whole minutes. A future entry gives negative hours and minutes.
   */
  lemma StayMeaning(diffMs: int)
    ensures var s := StayOf(diffMs);
      && (s.Days? <==> diffMs >= 24 * HourMs)
      && (s.Days? ==>
            && s.days >= 1 && 0 <= s.hours < 24
            && (s.days * 24 + s.hours) * HourMs <= diffMs < (s.days * 24 + s.hours + 1) * HourMs)
      && (s.Hours? && diffMs >= 0 ==>
            && 0 <= s.hours < 24 && 0 <= s.minutes < 60
            && s.hours * HourMs + s.minutes * MinuteMs <= diffMs
            && diffMs < s.hours * HourMs + (s.minutes + 1) * MinuteMs)
      && (s.Hours? && diffMs < 0 ==>
            && s.hours < 0 && -60 <= s.minutes <= 0
            && s.hours * HourMs <= diffMs < (s.hours + 1) * HourMs)
  {
  }

  /** The "permanência" text: `"{d}d {h}h"` or `"{h}h {m}m"`. */
  function Permanence(diffMs: int): string
  {
    match StayOf(diffMs)
    case Days(d, h) => IntToString(d) + "d " + IntToString(h) + "h"
    case Hours(h, m) => IntToString(h) + "h " + IntToString(m) + "m"
  }

  lemma PermanenceExamples()
    ensures Permanence(2 * 24 * HourMs + 3 * HourMs) == "2d 3h"
    ensures Permanence(5 * HourMs + 30 * MinuteMs) == "5h 30m"
    ensures Permanence(0) == "0h 0m"
  {
    assert StayOf(2 * 24 * HourMs + 3 * HourMs) == Days(2, 3);
    assert StayOf(5 * HourMs + 30 * MinuteMs) == Hours(5, 30);
    assert NatToString(30) == "30" by {
      assert NatToString(3) == "3";
    }
    assert StayOf(0) == Hours(0, 0);
  }

  /** An entry half an hour in the future shows negative hours and minutes. */
  lemma FutureEntryPermanence()
    ensures Permanence(-30 * MinuteMs) == "-1h -30m"
  {
    assert StayOf(-30 * MinuteMs) == Hours(-1, -30);
    assert NatToString(30) == "30" by {
      assert NatToString(3) == "3";
    }
  }

  /**
   * `DD/MM HH:MM` from the calendar fields of the entry instant, each field
   * zero-padded to two digits; `month` counts from 0 and is shown plus one.
   */
  function EntryText(day: int, month: int, hour: int, minute: int): string
  {
    Pad2(day) + "/" + Pad2(month + 1) + " " + Pad2(hour) + ":" + Pad2(minute)
  }

  /** The entry text of an instant, from its local-time reading. */
  function EntryTextAt(clock: Clock, instant: int): string
  {
    var t := clock(instant);
    EntryText(t.day, t.month, t.hour, t.minute)
  }

  /** A valid reading gives eleven characters whose four fields read back as day, month, hour, minute. */
  lemma EntryTextFields(day: int, month: int, hour: int, minute: int)
    requires 1 <= day <= 31 && 0 <= month < 12 && 0 <= hour < 24 && 0 <= minute < 60
    ensures var r := EntryText(day, month, hour, minute);
      && |r| == 11 && r[2] == '/' && r[5] == ' ' && r[8] == ':'
      && AllDigits(r[0..2]) && DigitsValue(r[0..2]) == day
      && AllDigits(r[3..5]) && DigitsValue(r[3..5]) == month + 1
      && AllDigits(r[6..8]) && DigitsValue(r[6..8]) == hour
      && AllDigits(r[9..11]) && DigitsValue(r[9..11]) == minute
  {
    EntryTextLayout(day, month, hour, minute);
    Pad2Value(day);
    Pad2Value(month + 1);
    Pad2Value(hour);
    Pad2Value(minute);
  }

  /** Where the four padded fields and the three separators sit in the entry text. */
  lemma EntryTextLayout(day: int, month: int, hour: int, minute: int)
    requires 1 <= day <= 31 && 0 <= month < 12 && 0 <= hour < 24 && 0 <= minute < 60
    ensures var r := EntryText(day, month, hour, minute);
      && |r| == 11 && r[2] == '/' && r[5] == ' ' && r[8] == ':'
      && r[0..2] == Pad2(day) && r[3..5] == Pad2(month + 1) && r[6..8] == Pad2(hour) && r[9..11] == Pad2(minute)
  {
    PadWidth(day);
    PadWidth(month + 1);
    PadWidth(hour);
    PadWidth(minute);
    StampLayout(Pad2(day), Pad2(month + 1), Pad2(hour), Pad2(minute));
  }

  lemma PadWidth(n: int)
    requires 0 <= n < 100
    ensures |Pad2(n)| == 2
  {
    Pad2Value(n);
  }

  /** Four two-character fields joined by `/`, ` ` and `:` sit at fixed positions. */
  lemma StampLayout(a: string, b: string, c: string, d: string)
    requires |a| == 2 && |b| == 2 && |c| == 2 && |d| == 2
    ensures var r := a + "/" + b + " " + c + ":" + d;
      && |r| == 11 && r[2] == '/' && r[5] == ' ' && r[8] == ':'
      && r[0..2] == a && r[3..5] == b && r[6..8] == c && r[9..11] == d
  {
  }

  /** `HH:MM` from the calendar fields, zero-padded. */
  function HourText(hour: int, minute: int): string
  {
    Pad2(hour) + ":" + Pad2(minute)
  }

  /** The hour text of an instant, from its local-time reading. */
  function HourTextAt(clock: Clock, instant: int): string
  {
    var t := clock(instant);
    HourText(t.hour, t.minute)
  }

  /** A valid hour and minute give five characters whose two fields read back as hour and minute. */
  lemma HourTextFields(hour: int, minute: int)
    requires 0 <= hour < 24 && 0 <= minute < 60
    ensures var r := HourText(hour, minute);
      && |r| == 5 && r[2] == ':'
      && AllDigits(r[0..2]) && DigitsValue(r[0..2]) == hour
      && AllDigits(r[3..5]) && DigitsValue(r[3..5]) == minute
  {
    HourTextLayout(hour, minute);
    Pad2Value(hour);
    Pad2Value(minute);
  }

  /** Where the two padded fields and the colon sit in the hour text. */
  lemma HourTextLayout(hour: int, minute: int)
    requires 0 <= hour < 24 && 0 <= minute < 60
    ensures var r := HourText(hour, minute);
      && |r| == 5 && r[2] == ':' && r[0..2] == Pad2(hour) && r[3..5] == Pad2(minute)
  {
    PadWidth(hour);
    PadWidth(minute);
    ClockLayout(Pad2(hour), Pad2(minute));
  }

  /** Two two-character fields joined by `:` sit at fixed positions. */
  lemma ClockLayout(a: string, b: string)
    requires |a| == 2 && |b| == 2
    ensures var r := a + ":" + b;
      && |r| == 5 && r[2] == ':' && r[0..2] == a && r[3..5] == b
  {
  }
}
